=== FILE: README.md ===
# Review export: dump parsing and record assembly

This project models `script/export_reviews_yaml.rb`, the script that turns a
MySQL text dump of a small review site into the YAML file the site reads. The
script does four things, and the model has one module for each:

- **Statement locator** (`statement_locator.dfy`): `statement_end` and
  `extract_values`. `statement_end` walks the text with two flags, one for
  being inside a quoted literal and one for a pending backslash. It returns
  the first `;` outside a literal. `extract_values` returns the text between
  `` INSERT INTO `table` VALUES `` and that `;`.
- **Value tokenizer** (`value_tokenizer.dfy`): the body of the field loop in
  `parse_values_list`. It reads `NULL` in any letter case, a quoted string
  with backslash escapes, or a bare token. A bare token is stripped and then
  becomes nil, a float, an integer or text.
- **Row scanner** (`row_scanner.dfy`): the rest of `parse_values_list`. It
  splits the value list into rows and recovers from a malformed row by
  skipping to the next `)`.
- **Relationship assembler** (`relationship_assembler.dfy`): lines 153-179.
  It groups image rows by `review_id` into a hash and builds one record per
  review row. It then sorts the records by the text of `created_at` and
  reverses them, so the newest come first.

`export.dfy` puts the four together as the script runs them. `lexical.dfy`
holds Ruby's character classes (`\s`, the set `strip` removes, digits), the
decimal text of integers and the ordering of strings. `wrappers.dfy` holds
`Option`.

The `StringScanner` becomes a cursor `p` into the value list. Each loop of
the source appears twice in the model:

- a `method` with the same loop and the same updates;
- a function that states what one pass of that loop does (`FieldStep`,
  `RowStep`) and folds the passes (`FieldsAfter`, `RowsAfter`).

Each method's `ensures` ties its result to that function. The lemmas then
prove the promised properties about the function. The hash fill, the sort
and the reverse are imperative. The fill is a loop that updates a `map`. The
sort and the reverse work in place on an `array`.

## Model

| member | source | states |
|---|---|---|
| StatementLocator.StatementEnd | script/export_reviews_yaml.rb:21-45 | the loop with its two flags returns exactly the first `;` that is outside a literal, or `None` when there is none |
| StatementLocator.Step | script/export_reviews_yaml.rb:25-43 | one character of the scan: only a quote read inside a literal leads outside (outside, a quote opens one), and only a backslash read inside a literal starts an escape |
| StatementLocator.StateAtBeforeQuote | script/export_reviews_yaml.rb:25-43 | the scan stays outside every literal until it reads a quote, and it is in an escape only just after a backslash |
| StatementLocator.FirstTerminatorUnique | script/export_reviews_yaml.rb:21-45 | "the first `;` outside quotes" fixes a single answer |
| StatementLocator.NextTerminatorIsFirst | script/export_reviews_yaml.rb:21-45 | the independent definition, which skips whole literals, finds the same first terminator as the flag machine |
| StatementLocator.NextTerminator | script/export_reviews_yaml.rb:21-45 | the literal-skipping search only ever answers with a `;` at or after the start |
| StatementLocator.NextTerminatorFound | script/export_reviews_yaml.rb:21-45 | the literal-skipping search finds nothing exactly when no `;` outside a literal follows the start, and otherwise finds the first one |
| StatementLocator.NextTerminatorFrom | script/export_reviews_yaml.rb:25-43 | from any outside position with no terminator before it, the literal-skipping scan finds the first terminator |
| StatementLocator.LiteralIsInert | script/export_reviews_yaml.rb:27-34 | inside a literal nothing terminates until the closing quote, and after that quote the scan is outside again |
| StatementLocator.EscapedQuoteStaysOpen | script/export_reviews_yaml.rb:28-31 | `\'` inside a literal does not close it, and the quote after the backslash is never a terminator |
| StatementLocator.IndexFrom | script/export_reviews_yaml.rb:49 | `String#index`: the first position at or after `i` where the marker occurs, or `None` when it occurs nowhere there |
| StatementLocator.Marker | script/export_reviews_yaml.rb:48 | the marker holds the table name between backquotes at offset 13, ends in a space, and is 22 characters longer than the name |
| StatementLocator.ValuesOf | script/export_reviews_yaml.rb:47-57 | no value list when the marker occurs nowhere in the dump |
| StatementLocator.ValuesOfIsSlice | script/export_reviews_yaml.rb:47-57 | a value list found is a slice of the dump that starts right after an occurrence of the marker and is followed by a `;` |
| StatementLocator.ExtractValues | script/export_reviews_yaml.rb:47-57 | the search for the marker followed by the flag scan gives exactly the value list of the literal-skipping reading `ValuesOf` |
| StatementLocator.ValuesOfFirstTerminator | script/export_reviews_yaml.rb:47-57 | `None` when the marker is missing, or when no `;` outside a literal follows its first occurrence; otherwise exactly the text from the end of that occurrence up to the first such `;` |
| Lexical.SpaceEnd | script/export_reviews_yaml.rb:77 | `skip(/\s*/)` stops after a maximal run of `\s` characters |
| Lexical.TrimStart | script/export_reviews_yaml.rb:109 | the leading part of `strip`: removes exactly the leading blanks and NULs |
| Lexical.TrimEnd | script/export_reviews_yaml.rb:109 | the trailing part of `strip`: removes exactly the trailing blanks and NULs |
| Lexical.Strip | script/export_reviews_yaml.rb:109 | `strip` never lengthens a token, and what it leaves neither starts nor ends with a blank or NUL |
| Lexical.StripIsMiddle | script/export_reviews_yaml.rb:109 | what `strip` keeps is one contiguous piece of the token, with the token's own text on either side of it |
| Lexical.StripDropsSpace | script/export_reviews_yaml.rb:109 | what `strip` drops on either side of that piece is nothing but blanks and NULs |
| Lexical.StripEmpty | script/export_reviews_yaml.rb:109-111 | `strip` gives the empty token, and so nil, exactly when the token is nothing but blanks and NULs |
| Lexical.StripUnchanged | script/export_reviews_yaml.rb:109 | `strip` leaves a token with no blank at either end unchanged |
| Lexical.DigitsRoundTrip | script/export_reviews_yaml.rb:114-115 | reading back the digits of a natural number gives that number |
| Lexical.DigitsOfCanonical | script/export_reviews_yaml.rb:114-115 | the digits `Integer#to_s` writes for a natural number have no leading zero, and are `0` only for zero |
| Lexical.DecimalCanonical | script/export_reviews_yaml.rb:178 | `Integer#to_s` writes a minus sign exactly for negative numbers, then digits with no leading zero, never `-0` |
| Lexical.CanonicalDigitsRoundTrip | script/export_reviews_yaml.rb:114-115 | digits with no leading zero, read as a number and written again, are the same digits |
| Lexical.LexLeTotal | script/export_reviews_yaml.rb:178 | any two `created_at` texts are comparable |
| Lexical.LexLeTransitive | script/export_reviews_yaml.rb:178 | the string order used by `sort_by!` is transitive |
| Lexical.LexLeEmpty | script/export_reviews_yaml.rb:178 | the empty text sorts before every text, and only the empty text sorts before it |
| ValueTokenizer.BareEnd | script/export_reviews_yaml.rb:108 | `scan(/[^,\)]+/)` takes the maximal run without `,` or `)` and stops at one of them or at the end |
| ValueTokenizer.NullAtIgnoresCase | script/export_reviews_yaml.rb:79 | the `/NULL/i` test is the word `NULL` with letters compared without regard to case |
| ValueTokenizer.Unescape | script/export_reviews_yaml.rb:88-98 | an escape always gives one character, and a different one from the escaped character only for `n`, `r` and `t` |
| ValueTokenizer.Classify | script/export_reviews_yaml.rb:110-118 | nil exactly for the empty token; a float exactly when the token holds a `.`, keeping the token; an integer exactly when the token is `-?\d+` with no `.`, and then the number its digits denote with its sign; otherwise the token itself as text, and then it is not `-?\d+` |
| Lexical.LeadingZerosIgnored | script/export_reviews_yaml.rb:115 | zeros in front of a run of digits leave the number `to_i` reads unchanged |
| Lexical.DigitsSplitZeros | script/export_reviews_yaml.rb:114-115 | every run of digits is some zeros followed by the digits `Integer#to_s` writes for its number |
| ValueTokenizer.ClassifySignedDigits | script/export_reviews_yaml.rb:114-115 | a sign, any leading zeros and the digits of `m` classify as `m`, or `-m` when signed (so `-0` is zero) |
| ValueTokenizer.IntLiteralShape | script/export_reviews_yaml.rb:114 | every `-?\d+` token has that shape, so the lemma above covers every integer token |
| ValueTokenizer.ClassifyUnusualIntegers | script/export_reviews_yaml.rb:114-115 | `007` reads as 7, `-0` as 0 and `-007` as -7 |
| ValueTokenizer.IntLiteralRoundTrip | script/export_reviews_yaml.rb:114-115 | an integer token written as `Integer#to_s` writes it (no leading zero, no `-0`) comes back unchanged from `to_i` and `to_s` |
| ValueTokenizer.Unquote | script/export_reviews_yaml.rb:84-104 | the quoted-string loop never moves backwards or past the end, and stops either at the end of the input or just after a quote |
| ValueTokenizer.ValueAt | script/export_reviews_yaml.rb:79-119 | reading one field never moves the cursor backwards or past the end |
| ValueTokenizer.ValueAtQuoted | script/export_reviews_yaml.rb:81-105 | a field starting with a quote is the text the quoted-string loop decodes |
| ValueTokenizer.ValueAtBare | script/export_reviews_yaml.rb:106-118 | any other field (not `NULL`) is the classification of the stripped bare token |
| ValueTokenizer.ReadQuoted | script/export_reviews_yaml.rb:84-104 | the loop that appends to `str` gives the decoded text and the cursor that `Unquote` defines |
| ValueTokenizer.ReadValue | script/export_reviews_yaml.rb:79-119 | reading a field gives the value and the cursor that `ValueAt` defines |
| ValueTokenizer.EscapeCharInverse | script/export_reviews_yaml.rb:88-98 | the escape table undoes escaping: `\n`, `\r`, `\t`, `\\`, `\'` and `\"` decode to the characters they stand for |
| ValueTokenizer.PlainCharDecodes | script/export_reviews_yaml.rb:101-102 | a character that is neither a backslash nor a quote is copied as it is |
| ValueTokenizer.EscapePairDecodes | script/export_reviews_yaml.rb:86-98 | a backslash and the character after it decode through the escape table |
| ValueTokenizer.UnquoteEscaped | script/export_reviews_yaml.rb:84-104 | any text, once escaped and followed by a quote, decodes back to itself and ends just after that quote (commas and parentheses inside included) |
| ValueTokenizer.UnquoteThrough | script/export_reviews_yaml.rb:84-104 | escaped text decodes back to itself, and decoding then goes on from where that text ends |
| ValueTokenizer.UnknownEscapeKeepsChar | script/export_reviews_yaml.rb:95-97 | an unknown escape keeps the escaped character and drops the backslash |
| ValueTokenizer.UnquoteStopsAtLiteralEnd | script/export_reviews_yaml.rb:84-104 | the quoted-string loop stops exactly where the statement scan leaves the literal: just after the first quote no backslash escapes, or at the end of the input |
| ValueTokenizer.OccursAtIsTextAt | script/export_reviews_yaml.rb:49 | the locator's occurrence of a marker and the scanner's text in place are the same fact |
| ValueTokenizer.UnterminatedRunsToEnd | script/export_reviews_yaml.rb:84-104 | any text, escaped (backslashes and quotes included) and never closed, runs to the end of the input and decodes back to itself |
| ValueTokenizer.UnterminatedPlainRunsToEnd | script/export_reviews_yaml.rb:84-104 | a string never closed, with no quote or backslash in it, is copied verbatim up to the end of the input |
| ValueTokenizer.TrailingBackslashAddsNothing | script/export_reviews_yaml.rb:86-98 | an unpaired backslash that is the last character of the input adds nothing (`nil.to_s`): any escaped text before it decodes to itself and decoding runs to the end |
| ValueTokenizer.PlainTrailingBackslash | script/export_reviews_yaml.rb:86-102 | the same case after plain text: the characters before the unpaired backslash are copied unchanged |
| ValueTokenizer.NonNumericWordIsText | script/export_reviews_yaml.rb:110-118 | a token with no `.` that does not end in a digit is returned as the raw text |
| ValueTokenizer.ClassifyDecimal | script/export_reviews_yaml.rb:114-115 | the decimal text of any integer, with its sign, is classified as that integer |
| ValueTokenizer.FloatWord | script/export_reviews_yaml.rb:112-113 | a numeric token containing `.` is classified as a float holding that token |
| ValueTokenizer.IntWord | script/export_reviews_yaml.rb:114-115 | the decimal text of an integer is a bare numeric word, and it classifies back to the integer |
| ValueTokenizer.NullWordIsNull | script/export_reviews_yaml.rb:79-80 | `NULL` in any letter case reads as nil and consumes four characters |
| ValueTokenizer.AbsentTokenIsNull | script/export_reviews_yaml.rb:108-111 | an empty bare token (a `,` or `)` right away, or the end) reads as nil and consumes nothing |
| ValueTokenizer.BareWord | script/export_reviews_yaml.rb:108 | a numeric word ahead of a delimiter is neither `NULL` nor a quoted string, and is scanned whole |
| ValueTokenizer.NullRoundTrip | script/export_reviews_yaml.rb:79-80 | `NULL` ahead of a delimiter reads back as nil |
| ValueTokenizer.TextRoundTrip | script/export_reviews_yaml.rb:81-105 | a quoted and escaped text reads back as the same text, ending after its closing quote |
| ValueTokenizer.BareRoundTrip | script/export_reviews_yaml.rb:106-118 | a numeric word ahead of a delimiter reads back as the classification of its stripped text, ending at the delimiter |
| ValueTokenizer.IntRoundTrip | script/export_reviews_yaml.rb:114-115 | an integer written in decimal reads back as the same integer |
| ValueTokenizer.FloatRoundTrip | script/export_reviews_yaml.rb:112-113 | a float token reads back as a float holding the same token |
| ValueTokenizer.ValueRoundTrip | script/export_reviews_yaml.rb:79-119 | every value as a dump writes it reads back as the same value and ends exactly where its text ends |
| RowScanner.SpacedChar | script/export_reviews_yaml.rb:126 | `skip(/\s*c/)` matches exactly when the first character after the spaces is `c`, and ends just after it |
| RowScanner.Separator | script/export_reviews_yaml.rb:124 | `skip(/\s*,\s*/)` matches exactly when a comma follows the spaces, and also skips the spaces after the comma |
| RowScanner.CloseAt | script/export_reviews_yaml.rb:130 | `scan(/[^\)]*/)` stops at the next `)` or at the end |
| RowScanner.UntilClose | script/export_reviews_yaml.rb:129-131 | recovery leaves the cursor just past the first `)` from where it starts, or at the end of the input when no `)` follows |
| RowScanner.FieldStep | script/export_reviews_yaml.rb:76-134 | one pass of the field loop stays within the input, and a pass that continues the row moves the cursor forward |
| RowScanner.FieldsAfter | script/export_reviews_yaml.rb:76-134 | the field loop adds at least one field and stays within the input |
| RowScanner.FieldsFrom | script/export_reviews_yaml.rb:75-134 | every row read has at least one field |
| RowScanner.RowStep | script/export_reviews_yaml.rb:65-137 | every pass of the outer loop moves the cursor forward by at least one character (the loop ends) |
| RowScanner.ReadField | script/export_reviews_yaml.rb:77-133 | one pass of the field loop gives the field and the continuation that `FieldStep` defines |
| RowScanner.ReadRow | script/export_reviews_yaml.rb:75-134 | the field loop appending to `row` gives the row and the cursor that `FieldsFrom` defines |
| RowScanner.ParseValuesList | script/export_reviews_yaml.rb:61-140 | the outer loop appending to `rows` gives exactly `RowsOf(values)` |
| RowScanner.RowsOf | script/export_reviews_yaml.rb:61-140 | at most one row per character of the value list, and every row has at least one field |
| RowScanner.RowsHaveFields | script/export_reviews_yaml.rb:65-137 | every row the outer loop appends has at least one field |
| RowScanner.RowsBound | script/export_reviews_yaml.rb:65-73 | a value list of length n gives at most n rows |
| RowScanner.RowsKeepOrder | script/export_reviews_yaml.rb:136 | rows are only appended: the rows read earlier stay in front, in encounter order |
| RowScanner.WrittenFieldRead | script/export_reviews_yaml.rb:77-122 | a written value followed by `,` or `)` is read whole, with no spaces skipped around it |
| RowScanner.FieldStepOnComma | script/export_reviews_yaml.rb:124-125 | a field followed by a comma continues the row just after the comma |
| RowScanner.FieldStepOnClose | script/export_reviews_yaml.rb:126-127 | a field followed by `)` ends the row just after the `)` |
| RowScanner.FieldsRoundTrip | script/export_reviews_yaml.rb:76-134 | written fields closed by `)` read back as the same fields, ending just after the `)` |
| RowScanner.RowStepAtParen | script/export_reviews_yaml.rb:69-75 | a `(` starts a row, and that row is the field loop run from the next character |
| RowScanner.WrittenRowRead | script/export_reviews_yaml.rb:75-134 | a written row reads back as itself, ending just after its `)` |
| RowScanner.RowStepOnRow | script/export_reviews_yaml.rb:65-136 | a written row at the cursor is one pass of the outer loop that appends that row |
| RowScanner.RowStepOnCommaRow | script/export_reviews_yaml.rb:66-136 | the same holds for a row preceded by the comma between rows |
| RowScanner.MoreRowsRoundTrip | script/export_reviews_yaml.rb:65-137 | the comma-separated rows after the first read back as themselves, in order |
| RowScanner.RowsReadThrough | script/export_reviews_yaml.rb:65-137 | written rows, each behind a comma, are read in order, and the outer loop goes on just after them whatever follows |
| RowScanner.WrittenPrefixRead | script/export_reviews_yaml.rb:61-137 | written rows at the start of the value list are read first, in order, whatever follows them |
| RowScanner.RowsAfterRow | script/export_reviews_yaml.rb:65-137 | a row read by one pass, followed by written rows up to the end, gives that row and then those rows, in order |
| RowScanner.RowsRoundTrip | script/export_reviews_yaml.rb:61-140 | a value list written as a dump writes it, `(…),(…)`, reads back as the same rows in the same order |
| RowScanner.FieldStepWithin | script/export_reviews_yaml.rb:124-133 | inside a row that closes at `c` with no quote before it, a pass either continues before `c` or ends just after `c`, recovery included |
| RowScanner.FieldsWithin | script/export_reviews_yaml.rb:124-133 | such a row always ends just after its `)`, whatever junk it holds |
| RowScanner.PlainRowStep | script/export_reviews_yaml.rb:69-136 | a `(` at any position whose row holds no `)` and no quote before its `)` is one pass of the outer loop: its (partial) fields are appended and reading resumes after its `)` |
| RowScanner.CommaParenRead | script/export_reviews_yaml.rb:66-75 | at `,(` the outer loop skips the comma and reads a row from the character after the `(` |
| RowScanner.PlainRowStepAfterComma | script/export_reviews_yaml.rb:66-136 | the same row behind a separating comma is one pass of the outer loop that appends its fields and resumes after its `)` |
| RowScanner.MalformedRowResyncs | script/export_reviews_yaml.rb:124-136 | a malformed row with no `)` or quote in it still yields one row, and the well-formed rows after it read back unchanged and in order |
| RowScanner.MalformedRowAfterRows | script/export_reviews_yaml.rb:124-136 | a malformed row with no `)` or quote in it, after any number of written rows, still yields one row in its place, and the rows before and after it read back unchanged and in order |
| RowScanner.RowsAroundPlainRow | script/export_reviews_yaml.rb:61-140 | written rows, then such a row, then written rows up to the end: the rows before, the row, the rows after, in order |
| RowScanner.RowsAfterPlainRow | script/export_reviews_yaml.rb:65-137 | from the comma before such a row: the row, then the written rows after it, in order |
| RelationshipAssembler.GroupImages | script/export_reviews_yaml.rb:154-163 | the hash has no nil key, holds exactly the ids that have images, and under each id holds exactly the images of the rows with that `review_id`, in row order |
| RelationshipAssembler.ImageIgnoresReviewId | script/export_reviews_yaml.rb:155-162 | the image hash is built from every column but `review_id`: rows that differ only there give the same image |
| RelationshipAssembler.ExtraColumnsIgnored | script/export_reviews_yaml.rb:155-172 | the block parameters take the first five columns: columns past the fifth change neither the image, nor its `review_id`, nor the review record |
| RelationshipAssembler.ShortImageRowSkipped | script/export_reviews_yaml.rb:155-156 | an image row too short to reach `review_id` has a nil one and is filed under no review |
| RelationshipAssembler.NoImagesForNull | script/export_reviews_yaml.rb:156 | no image is ever filed under a nil review id |
| RelationshipAssembler.ImagesComeFromRows | script/export_reviews_yaml.rb:155-162 | every image listed under an id comes from an image row whose `review_id` is that id, and the id is not nil |
| RelationshipAssembler.RowsGiveImages | script/export_reviews_yaml.rb:155-162 | every image row with a `review_id` is listed under that id |
| RelationshipAssembler.ImagesOfSamePrefix | script/export_reviews_yaml.rb:155-162 | the images filed so far depend only on the rows read so far |
| RelationshipAssembler.ImagesOfConcat | script/export_reviews_yaml.rb:155-162 | grouping keeps input order: the images of two runs of rows are those of the first run followed by those of the second |
| RelationshipAssembler.RecordsAreExpected | script/export_reviews_yaml.rb:165-175 | `map` builds one record per review row, in row order, each holding its columns and exactly the images of its id |
| RelationshipAssembler.NilIdHasNoImages | script/export_reviews_yaml.rb:166-173 | a review with a nil id gets no images |
| RelationshipAssembler.SortByCreated | script/export_reviews_yaml.rb:178 | `sort_by!` leaves the records ordered by `created_at` text and is a permutation of them |
| RelationshipAssembler.InsertLast | script/export_reviews_yaml.rb:178 | one insertion pass extends the sorted prefix by one element, rearranges only that prefix and leaves every element above it in place |
| RelationshipAssembler.Reversed | script/export_reviews_yaml.rb:179 | position k of the reversal holds the element at position n-1-k |
| RelationshipAssembler.Reverse | script/export_reviews_yaml.rb:179 | `reverse!` leaves the array reversed |
| RelationshipAssembler.ReversedAscending | script/export_reviews_yaml.rb:178-179 | reversing an ascending list gives a descending list of the same records |
| RelationshipAssembler.ReversedMultiset | script/export_reviews_yaml.rb:179 | reversing keeps every element, as often as it occurred |
| RelationshipAssembler.UnstampedLast | script/export_reviews_yaml.rb:177-179 | newest first, a record whose `created_at` text is empty is followed only by such records |
| RelationshipAssembler.NilCreatedIsEmpty | script/export_reviews_yaml.rb:178 | a nil `created_at` reads as the empty text, the lowest key, so only empty keys can sort after it |
| RelationshipAssembler.CreatedTextEmpty | script/export_reviews_yaml.rb:178 | the sort key is empty exactly for a nil `created_at` or an empty text (an integer always prints a digit) |
| RelationshipAssembler.Assemble | script/export_reviews_yaml.rb:153-179 | one record per review row (same count, same records), newest first, each record's images exactly those filed under its id |
| Export.ExportReviews | script/export_reviews_yaml.rb:142-179 | `None`, the warn-and-exit path, exactly when either statement is missing or unterminated; otherwise the assembled records of the rows parsed from both value lists |

## Left out

- File handling is not modelled: the existence check, the binary read, the UTF-8 re-encoding and `scrub`, `warn`/`exit`, the YAML serialisation and the `puts` report (lines 7-18, 145-148, 181-182). The model starts from the dump as a string of characters and ends with the records.
- The float value of a token (`to_f`) is not modelled. A float keeps the token it was read from.
- `ValueTokenizer.FloatRoundTrip`: only tokens of digits, `-` and `.` are covered, because the exact text Ruby prints for a float is not modelled.
- The sort key of a float `created_at` (`CreatedText`) is the token as read. Ruby would use `Float#to_s`, which can differ (for example `2.50` prints as `2.5`).
- `RelationshipAssembler.GroupImages`: float hash keys are compared by their token text. Ruby compares them by value, so `1.0` and `1.00` would share an entry.
- The order among records with equal `created_at` text is not promised. `sort_by!` is not stable and is followed by `reverse!`. The comment at script/export_reviews_yaml.rb:177 says the order is kept stable for nil timestamps, but lines 178-179 do not do that; the model follows the code, not the comment. Only order and permutation are proved, and the insertion sort used here is just one sort with those two properties.
- The default block of `images_by_review` stores an empty list for every id read in `map`. This is not observable in the records and is not modelled; `Lookup` returns the empty list without storing it.
- Records that share an id share one Ruby array for their images, so YAML writes an alias for it. The model has values, not references, so this is not captured.
- `RowScanner.MalformedRowResyncs`: only a malformed first row without a quote is covered; `MalformedRowAfterRows` covers such a row after written rows. A quote at the start of a field opens a string, which can run past the `)`; the recovery then stops at a later `)`.
- `RowScanner.MalformedRowAfterRows`: only one malformed row, without a quote, between well-formed written rows is covered; several malformed rows, or rows with spaces around the separators, are not.
- `RowScanner.RowsRoundTrip`: only writable rows are covered (every float token made of digits, `-` and `.`), and the dump's separators are exactly `,` with no spaces.
- `extract_values` uses the first `INSERT` statement for a table only. A dump that splits a table over several statements loses the later rows, in the model as in the script.
- The rest of the repository (the reload cache in `app/models/review_store.rb`, the web front end and controllers, the server configuration) is not part of this model.

=== FILE: export.dfy ===
/**
  The export script end to end, without its file handling: locate both
  statements, split their value lists into rows and assemble the records
  that would be written out as YAML.
 */
module Export {
  import opened Wrappers
  import opened StatementLocator
  import opened RowScanner
  import opened RelationshipAssembler

  /**
    Lines 142-179 of the export script. `None` is the path where either
    `INSERT` statement is missing and the script warns and exits with
    status 1; otherwise the records, newest first.
   */
  method ExportReviews(sql: string) returns (r: Option<seq<Review>>)
    ensures r.None? <==> ValuesOf(sql, "reviews").None? || ValuesOf(sql, "images").None?
    ensures r.Some? ==> ValuesOf(sql, "reviews").Some? && ValuesOf(sql, "images").Some?
    ensures r.Some? ==> Exported(r.value, RowsOf(ValuesOf(sql, "reviews").value), RowsOf(ValuesOf(sql, "images").value))
  {
    var reviewsValues := ExtractValues(sql, "reviews");
    var imagesValues := ExtractValues(sql, "images");
    if reviewsValues.None? || imagesValues.None? {
      return None;
    }
    var reviewRows := ParseValuesList(reviewsValues.value);
    var imageRows := ParseValuesList(imagesValues.value);
    var reviews := Assemble(reviewRows, imageRows);
    return Some(reviews);
  }

  /**
    What the written file holds: one record per review row, each with exactly
    the images filed under its id, newest first.
   */
  predicate Exported(reviews: seq<Review>, reviewRows: seq<Row>, imageRows: seq<Row>) {
    && |reviews| == |reviewRows|
    && multiset(reviews) == multiset(ExpectedRecords(reviewRows, imageRows))
    && Descending(reviews)
    && forall x :: x in reviews ==> x.images == ImagesFor(imageRows, x.id)
  }
}

=== FILE: lexical.dfy ===
/**
  Character classes and small string functions that the export script takes
  from Ruby: the regular-expression classes `\s` and `\d`, `String#strip`,
  `Integer#to_s` / `String#to_i` on decimal text, and `String#<=>`.
 */
module Lexical {

  /** Ruby's `\s`: space, tab, line feed, vertical tab, form feed, carriage return. */
  predicate IsSpace(c: char) {
    c == ' ' || c == '\t' || c == '\n' || c == '\U{000B}' || c == '\U{000C}' || c == '\r'
  }

  /** What `String#strip` removes: the `\s` characters and NUL. */
  predicate IsStripSpace(c: char) {
    IsSpace(c) || c == '\0'
  }

  /** Ruby's `\d`: an ASCII decimal digit. */
  predicate IsDigit(c: char) {
    '0' <= c <= '9'
  }

  predicate AllDigits(s: string) {
    forall i :: 0 <= i < |s| ==> IsDigit(s[i])
  }

  /** Where the longest run of `\s` characters starting at `p` ends (the regex `\s*`). */
  function SpaceEnd(s: string, p: nat): (q: nat)
    requires p <= |s|
    ensures p <= q <= |s|
    ensures forall i :: p <= i < q ==> IsSpace(s[i])
    ensures q == |s| || !IsSpace(s[q])
    decreases |s| - p
  {
    if p < |s| && IsSpace(s[p]) then SpaceEnd(s, p + 1) else p
  }

  /** `String#lstrip`: drops the leading strip-space characters. */
  function TrimStart(t: string): (r: string)
    ensures |r| <= |t| && r == t[|t| - |r|..]
    ensures forall i :: 0 <= i < |t| - |r| ==> IsStripSpace(t[i])
    ensures r == [] || !IsStripSpace(r[0])
    decreases |t|
  {
    if t != [] && IsStripSpace(t[0]) then TrimStart(t[1..]) else t
  }

  /** `String#rstrip`: drops the trailing strip-space characters. */
  function TrimEnd(t: string): (r: string)
    ensures |r| <= |t| && r == t[..|r|]
    ensures forall i :: |r| <= i < |t| ==> IsStripSpace(t[i])
    ensures r == [] || !IsStripSpace(r[|r| - 1])
    decreases |t|
  {
    if t != [] && IsStripSpace(t[|t| - 1]) then TrimEnd(t[..|t| - 1]) else t
  }

  /**
    `String#strip`: the result neither starts nor ends with strip-space.
    `StripIsMiddle` and `StripEmpty` say what it keeps.
   */
  function Strip(t: string): (r: string)
    ensures |r| <= |t|
    ensures r == [] || (!IsStripSpace(r[0]) && !IsStripSpace(r[|r| - 1]))
  {
    var u := TrimStart(t);
    assert u != [] ==> u[0] == t[|t| - |u|];
    TrimEnd(u)
  }

  /** A string that neither starts nor ends with strip-space is left alone by `strip`. */
  lemma StripUnchanged(t: string)
    requires t == [] || (!IsStripSpace(t[0]) && !IsStripSpace(t[|t| - 1]))
    ensures Strip(t) == t
  {
  }

  predicate AllStripSpace(s: string) {
    forall k :: 0 <= k < |s| ==> IsStripSpace(s[k])
  }

  /** Where the text `strip` keeps begins. */
  function StripStart(t: string): (i: nat)
    ensures i + |Strip(t)| <= |t|
  {
    |t| - |TrimStart(t)|
  }

  /** `strip` keeps one contiguous piece of the string ... */
  lemma StripIsMiddle(t: string)
    ensures t == t[..StripStart(t)] + Strip(t) + t[StripStart(t) + |Strip(t)|..]
  {
    var u := TrimStart(t);
    var r := TrimEnd(u);
    var i := |t| - |u|;
    ThreeParts(t, i, r, u[|r|..]);
    assert u[|r|..] == t[i + |r|..];
  }

  /** ... and drops only strip-space on either side of it. */
  lemma StripDropsSpace(t: string)
    ensures AllStripSpace(t[..StripStart(t)]) && AllStripSpace(t[StripStart(t) + |Strip(t)|..])
  {
    var u := TrimStart(t);
    var r := TrimEnd(u);
    LeadingStripped(t);
    TrailingStripped(u);
    assert u[|r|..] == t[|t| - |u| + |r|..];
  }

  lemma LeadingStripped(t: string)
    ensures AllStripSpace(t[..|t| - |TrimStart(t)|])
  {
  }

  lemma TrailingStripped(u: string)
    ensures AllStripSpace(u[|TrimEnd(u)|..])
  {
    var r := TrimEnd(u);
    forall k | 0 <= k < |u| - |r|
      ensures IsStripSpace(u[|r|..][k])
    {
      assert u[|r|..][k] == u[|r| + k];
    }
  }

  lemma ThreeParts(t: string, i: nat, r: string, post: string)
    requires i <= |t| && t[i..] == r + post
    ensures t == t[..i] + r + post
  {
    assert t == t[..i] + t[i..];
  }

  /** `strip` gives the empty string exactly when the string is nothing but strip-space. */
  lemma StripEmpty(t: string)
    ensures Strip(t) == [] <==> AllStripSpace(t)
  {
    if Strip(t) == [] {
      StripDropsSpace(t);
      assert t[..StripStart(t)] == t;
    }
  }


  function DigitChar(d: nat): (c: char)
    requires d < 10
    ensures IsDigit(c) && c as int == '0' as int + d
  {
    ['0', '1', '2', '3', '4', '5', '6', '7', '8', '9'][d]
  }

  function DigitValue(c: char): (d: nat)
    requires IsDigit(c)
    ensures d < 10 && DigitChar(d) == c
  {
    (c as int - '0' as int) as nat
  }

  /** The decimal digits of `n`, most significant first, without leading zeros. */
  function DigitsOf(n: nat): (s: string)
    ensures |s| >= 1 && AllDigits(s)
    decreases n
  {
    if n < 10 then [DigitChar(n)] else DigitsOf(n / 10) + [DigitChar(n % 10)]
  }

  /** The number a run of decimal digits denotes (leading zeros allowed). */
  function DigitsValue(s: string): nat
    requires AllDigits(s)
    decreases |s|
  {
    if s == [] then 0 else DigitsValue(s[..|s| - 1]) * 10 + DigitValue(s[|s| - 1])
  }

  /** `z` zero digits. */
  function Zeros(z: nat): (r: string)
    ensures |r| == z && forall i :: 0 <= i < z ==> r[i] == '0'
  {
    if z == 0 then "" else Zeros(z - 1) + "0"
  }

  /** Zeros in front of digits change nothing in the number they denote. */
  lemma {:induction false} LeadingZerosIgnored(z: nat, d: string)
    requires AllDigits(d)
    ensures AllDigits(Zeros(z) + d) && DigitsValue(Zeros(z) + d) == DigitsValue(d)
    decreases |d|
  {
    var w := Zeros(z) + d;
    assert forall i :: 0 <= i < |w| ==> w[i] == if i < z then '0' else d[i - z];
    if d == [] {
      assert w == Zeros(z);
      ZerosValue(z);
    } else {
      var init := d[..|d| - 1];
      LeadingZerosIgnored(z, init);
      assert w[..|w| - 1] == Zeros(z) + init;
      assert w[|w| - 1] == d[|d| - 1];
    }
  }

  lemma {:induction false} ZerosValue(z: nat)
    ensures AllDigits(Zeros(z)) && DigitsValue(Zeros(z)) == 0
    decreases z
  {
    if z > 0 {
      ZerosValue(z - 1);
      assert Zeros(z)[..z - 1] == Zeros(z - 1);
    }
  }

  /** Every non-empty run of digits is some zeros followed by the digits `Integer#to_s` writes for its number. */
  lemma {:induction false} DigitsSplitZeros(d: string)
    requires |d| >= 1 && AllDigits(d)
    ensures exists z: nat :: d == Zeros(z) + DigitsOf(DigitsValue(d))
    decreases |d|
  {
    if d[0] != '0' || |d| == 1 {
      CanonicalDigitsRoundTrip(d);
      assert d == Zeros(0) + DigitsOf(DigitsValue(d));
    } else {
      DigitsSplitZeros(d[1..]);
      var z: nat :| d[1..] == Zeros(z) + DigitsOf(DigitsValue(d[1..]));
      OneMoreZero(d, z);
    }
  }

  lemma OneMoreZero(d: string, z: nat)
    requires |d| >= 2 && d[0] == '0' && AllDigits(d)
    requires d[1..] == Zeros(z) + DigitsOf(DigitsValue(d[1..]))
    ensures d == Zeros(z + 1) + DigitsOf(DigitsValue(d))
  {
    var rest := d[1..];
    LeadingZerosIgnored(1, rest);
    assert d == Zeros(1) + rest;
    var x := DigitsOf(DigitsValue(d));
    assert Zeros(z + 1) == Zeros(z) + "0";
    assert forall i :: 0 <= i < |d| ==> d[i] == (Zeros(z + 1) + x)[i];
  }

  /** A run of digits as `Integer#to_s` writes it: no leading zero unless it is `0` itself. */
  predicate CanonicalDigits(s: string) {
    |s| >= 1 && AllDigits(s) && (s[0] != '0' || s == "0")
  }

  /** `Integer#to_s`. */
  function Decimal(n: int): string {
    if n < 0 then "-" + DigitsOf(-n) else DigitsOf(n)
  }

  /** `DigitsOf` writes no leading zero: its first digit is `0` only for zero itself. */
  lemma {:induction false} DigitsOfCanonical(n: nat)
    ensures CanonicalDigits(DigitsOf(n))
    ensures DigitsOf(n) == "0" <==> n == 0
    decreases n
  {
    if n >= 10 {
      DigitsOfCanonical(n / 10);
      assert DigitsOf(n)[0] == DigitsOf(n / 10)[0];
    }
  }

  /** `Integer#to_s` writes a minus sign exactly for negative numbers, then canonical digits other than `-0`. */
  lemma DecimalCanonical(n: int)
    ensures Decimal(n) != [] && (Decimal(n)[0] == '-' <==> n < 0)
    ensures n < 0 ==> CanonicalDigits(Decimal(n)[1..]) && Decimal(n)[1..] != "0"
    ensures n >= 0 ==> CanonicalDigits(Decimal(n))
  {
    if n < 0 {
      DigitsOfCanonical(-n);
      assert Decimal(n)[1..] == DigitsOf(-n);
    } else {
      DigitsOfCanonical(n);
    }
  }

  /** Reading back the digits `DigitsOf` writes gives the number again. */
  lemma {:induction false} DigitsRoundTrip(n: nat)
    ensures DigitsValue(DigitsOf(n)) == n
    decreases n
  {
    var s := DigitsOf(n);
    if n >= 10 {
      DigitsRoundTrip(n / 10);
      assert s[..|s| - 1] == DigitsOf(n / 10);
    }
  }

  /** A run of digits with a non-zero first digit denotes a positive number. */
  lemma {:induction false} LeadingDigitPositive(s: string)
    requires |s| >= 1 && AllDigits(s) && s[0] != '0'
    ensures DigitsValue(s) >= 1
    decreases |s|
  {
    if |s| >= 2 {
      LeadingDigitPositive(s[..|s| - 1]);
    }
  }

  /** Canonical digits read as a number and written again are the same digits. */
  lemma {:induction false} CanonicalDigitsRoundTrip(s: string)
    requires CanonicalDigits(s)
    ensures DigitsOf(DigitsValue(s)) == s
    decreases |s|
  {
    var n := DigitsValue(s);
    if |s| >= 2 {
      var init := s[..|s| - 1];
      assert CanonicalDigits(init) && init[0] == s[0];
      LeadingDigitPositive(init);
      CanonicalDigitsRoundTrip(init);
      assert n / 10 == DigitsValue(init) && n % 10 == DigitValue(s[|s| - 1]);
      assert s == init + [s[|s| - 1]];
    }
  }

  /** The ASCII upper case of a character, as a case-insensitive regex compares letters. */
  function UpperAscii(c: char): (u: char)
    ensures 'a' <= c <= 'z' ==> u as int == c as int - 32
    ensures !('a' <= c <= 'z') ==> u == c
  {
    if 'a' <= c <= 'z' then (c as int - 32) as char else c
  }

  /** The word `w` stands in `s` at `p`, letters compared without regard to case. */
  predicate MatchesIgnoringCase(s: string, p: nat, w: string) {
    p + |w| <= |s| && forall i :: 0 <= i < |w| ==> UpperAscii(s[p + i]) == UpperAscii(w[i])
  }

  /**
    `String#<=>` as `sort_by` uses it: lexicographic by character, a proper
    prefix ordered first. `LexLe(a, b)` is `a <= b`.
   */
  predicate LexLe(a: string, b: string)
    decreases |a|
  {
    a == [] || (b != [] && (a[0] < b[0] || (a[0] == b[0] && LexLe(a[1..], b[1..]))))
  }

  lemma {:induction false} LexLeTotal(a: string, b: string)
    ensures LexLe(a, b) || LexLe(b, a)
    decreases |a|
  {
    if a != [] && b != [] && a[0] == b[0] {
      LexLeTotal(a[1..], b[1..]);
    }
  }

  lemma {:induction false} LexLeTransitive(a: string, b: string, c: string)
    requires LexLe(a, b) && LexLe(b, c)
    ensures LexLe(a, c)
    decreases |a|
  {
    if a != [] && a[0] == b[0] && b[0] == c[0] {
      LexLeTransitive(a[1..], b[1..], c[1..]);
    }
  }

  /** The empty text is below every text and only the empty text is below it. */
  lemma LexLeEmpty(a: string)
    ensures LexLe("", a)
    ensures LexLe(a, "") <==> a == ""
  {
  }
}

=== FILE: relationship_assembler.dfy ===
/**
  Turning the parsed rows into review records: image rows grouped by the
  review they belong to, one record per review row carrying its images, and
  the records ordered newest first by the text of their `created_at`.
 */
module RelationshipAssembler {
  import opened Lexical
  import opened ValueTokenizer
  import opened RowScanner

  /**
    Column `k` of a row as a block parameter sees it: a row shorter than the
    parameter list leaves the missing parameters nil, and extra columns are
    ignored.
   */
  function Column(row: Row, k: nat): Value {
    if k < |row| then row[k] else Null
  }

  // ---------------------------------------------------------------------
  // images: id, url, review_id, created_at, updated_at

  /** The hash an image row becomes inside its review (its `review_id` is dropped). */
  datatype Image = Image(id: Value, url: Value, createdAt: Value, updatedAt: Value)

  function ImageOf(row: Row): Image {
    Image(Column(row, 0), Column(row, 1), Column(row, 3), Column(row, 4))
  }

  function ReviewIdOf(row: Row): Value {
    Column(row, 2)
  }

  /** The image hash is built from every column but `review_id`: rows that differ only there give the same image. */
  lemma ImageIgnoresReviewId(a: Row, b: Row)
    requires forall k :: k != 2 ==> Column(a, k) == Column(b, k)
    ensures ImageOf(a) == ImageOf(b)
  {
    assert Column(a, 0) == Column(b, 0) && Column(a, 1) == Column(b, 1);
    assert Column(a, 3) == Column(b, 3) && Column(a, 4) == Column(b, 4);
  }

  /** Columns past the fifth are ignored by both blocks. */
  lemma ExtraColumnsIgnored(row: Row, extra: Row, byReview: map<Value, seq<Image>>)
    requires |row| >= 5
    ensures ImageOf(row + extra) == ImageOf(row) && ReviewIdOf(row + extra) == ReviewIdOf(row)
    ensures RecordOf(row + extra, byReview) == RecordOf(row, byReview)
  {
    assert forall k :: 0 <= k < 5 ==> (row + extra)[k] == row[k];
  }

  /** An image row too short to reach its `review_id` has a nil one, so it is filed under no review. */
  lemma ShortImageRowSkipped(rows: seq<Row>, i: nat, key: Value)
    requires i < |rows| && |rows[i]| <= 2
    ensures ReviewIdOf(rows[i]) == Null && !BelongsTo(rows[i], key)
  {
  }

  /** Whether an image row belongs to the review with id `key`: rows with a nil `review_id` belong to none. */
  predicate BelongsTo(row: Row, key: Value) {
    ReviewIdOf(row) != Null && ReviewIdOf(row) == key
  }

  /** The images that the first `n` image rows give the review `key`, in row order. */
  function ImagesUpTo(rows: seq<Row>, n: nat, key: Value): seq<Image>
    requires n <= |rows|
  {
    if n == 0 then []
    else if BelongsTo(rows[n - 1], key) then ImagesUpTo(rows, n - 1, key) + [ImageOf(rows[n - 1])]
    else ImagesUpTo(rows, n - 1, key)
  }

  /** The images of the review `key`: every image row whose `review_id` is `key`, in row order. */
  function ImagesFor(rows: seq<Row>, key: Value): seq<Image> {
    ImagesUpTo(rows, |rows|, key)
  }

  /** Reading `images_by_review[k]`: a key never stored reads as an empty list. */
  function Lookup(byReview: map<Value, seq<Image>>, k: Value): seq<Image> {
    if k in byReview then byReview[k] else []
  }

  /**
    The loop that fills `images_by_review`: rows with a nil `review_id` are
    skipped, every other row appends its image to the list of its review.
   */
  method GroupImages(rows: seq<Row>) returns (byReview: map<Value, seq<Image>>)
    ensures Null !in byReview
    ensures forall k :: k in byReview <==> ImagesFor(rows, k) != []
    ensures forall k :: Lookup(byReview, k) == ImagesFor(rows, k)
  {
    byReview := map[];
    for i := 0 to |rows|
      invariant Null !in byReview
      invariant forall k :: k in byReview <==> ImagesUpTo(rows, i, k) != []
      invariant forall k :: Lookup(byReview, k) == ImagesUpTo(rows, i, k)
    {
      var reviewId := ReviewIdOf(rows[i]);
      if reviewId != Null {
        byReview := byReview[reviewId := Lookup(byReview, reviewId) + [ImageOf(rows[i])]];
      }
    }
  }

  /** No image is ever filed under a nil review id. */
  lemma {:induction false} NoImagesForNull(rows: seq<Row>, n: nat)
    requires n <= |rows|
    ensures ImagesUpTo(rows, n, Null) == []
  {
    if n > 0 {
      NoImagesForNull(rows, n - 1);
    }
  }

  /** Every image listed for `key` comes from an image row whose `review_id` is `key`, and `key` is not nil. */
  lemma {:induction false} ImagesComeFromRows(rows: seq<Row>, n: nat, key: Value, img: Image)
    requires n <= |rows| && img in ImagesUpTo(rows, n, key)
    ensures key != Null
    ensures exists i :: 0 <= i < n && BelongsTo(rows[i], key) && ImageOf(rows[i]) == img
  {
    if !BelongsTo(rows[n - 1], key) || img != ImageOf(rows[n - 1]) {
      ImagesComeFromRows(rows, n - 1, key, img);
    }
  }

  /** Every image row with a `review_id` is listed under that id. */
  lemma {:induction false} RowsGiveImages(rows: seq<Row>, n: nat, i: nat)
    requires i < n <= |rows| && ReviewIdOf(rows[i]) != Null
    ensures ImageOf(rows[i]) in ImagesUpTo(rows, n, ReviewIdOf(rows[i]))
  {
    if i < n - 1 {
      RowsGiveImages(rows, n - 1, i);
    }
  }

  /** Rows that agree on their first `n` entries give the same images for them. */
  lemma {:induction false} ImagesOfSamePrefix(a: seq<Row>, b: seq<Row>, n: nat, key: Value)
    requires n <= |a| && n <= |b| && a[..n] == b[..n]
    ensures ImagesUpTo(a, n, key) == ImagesUpTo(b, n, key)
  {
    if n > 0 {
      assert a[n - 1] == a[..n][n - 1] == b[..n][n - 1] == b[n - 1];
      assert a[..n - 1] == a[..n][..n - 1] == b[..n][..n - 1] == b[..n - 1];
      ImagesOfSamePrefix(a, b, n - 1, key);
    }
  }

  /**
    Grouping keeps the input order: the images that two runs of rows give a
    review are those of the first run followed by those of the second.
   */
  lemma {:induction false} ImagesOfConcat(a: seq<Row>, b: seq<Row>, m: nat, key: Value)
    requires m <= |b|
    ensures ImagesUpTo(a + b, |a| + m, key) == ImagesFor(a, key) + ImagesUpTo(b, m, key)
  {
    if m == 0 {
      assert (a + b)[..|a|] == a[..|a|];
      ImagesOfSamePrefix(a + b, a, |a|, key);
      assert ImagesFor(a, key) + [] == ImagesFor(a, key);
    } else {
      ImagesOfConcat(a, b, m - 1, key);
      assert (a + b)[|a| + m - 1] == b[m - 1];
      if BelongsTo(b[m - 1], key) {
        AppendAssociates(ImagesFor(a, key), ImagesUpTo(b, m - 1, key), [ImageOf(b[m - 1])]);
      }
    }
  }

  // ---------------------------------------------------------------------
  // reviews: id, name, review, created_at, updated_at

  /** The hash a review row becomes, with the images filed under its id. */
  datatype Review = Review(id: Value, name: Value, review: Value, createdAt: Value, updatedAt: Value, images: seq<Image>)

  /** The block of `reviews_rows.map`: one record from one review row and the filled hash. */
  function RecordOf(row: Row, byReview: map<Value, seq<Image>>): Review {
    var id := Column(row, 0);
    Review(id, Column(row, 1), Column(row, 2), Column(row, 3), Column(row, 4), Lookup(byReview, id))
  }

  /** `reviews_rows.map`. */
  function Records(rows: seq<Row>, byReview: map<Value, seq<Image>>): seq<Review> {
    seq(|rows|, i requires 0 <= i < |rows| => RecordOf(rows[i], byReview))
  }

  /** What the record of one review row should be: its columns and exactly the images filed under its id. */
  function ExpectedRecord(row: Row, imageRows: seq<Row>): Review {
    var id := Column(row, 0);
    Review(id, Column(row, 1), Column(row, 2), Column(row, 3), Column(row, 4), ImagesFor(imageRows, id))
  }

  /** The records the review rows should give, one per row, in row order. */
  function ExpectedRecords(rows: seq<Row>, imageRows: seq<Row>): seq<Review> {
    seq(|rows|, i requires 0 <= i < |rows| => ExpectedRecord(rows[i], imageRows))
  }

  /** With the hash that grouping gives, `map` builds exactly one expected record per review row, in row order. */
  lemma RecordsAreExpected(rows: seq<Row>, byReview: map<Value, seq<Image>>, imageRows: seq<Row>)
    requires forall k :: Lookup(byReview, k) == ImagesFor(imageRows, k)
    ensures |Records(rows, byReview)| == |rows|
    ensures forall i :: 0 <= i < |rows| ==> Records(rows, byReview)[i] == ExpectedRecord(rows[i], imageRows)
  {
  }

  /** A review row with a nil id gets no images. */
  lemma NilIdHasNoImages(row: Row, imageRows: seq<Row>)
    requires Column(row, 0) == Null
    ensures ExpectedRecord(row, imageRows).images == []
  {
    NoImagesForNull(imageRows, |imageRows|);
  }

  // ---------------------------------------------------------------------
  // Ordering by `created_at.to_s`.

  /** `r["created_at"].to_s`: nil gives the empty text; a float keeps its text as read. */
  function CreatedText(r: Review): string {
    match r.createdAt
    case Null => ""
    case Int(i) => Decimal(i)
    case Flt(raw) => raw
    case Text(t) => t
  }

  /**
    The sort key is empty exactly for a nil `created_at` or an empty text
    (an integer always prints at least one digit).
   */
  lemma CreatedTextEmpty(r: Review)
    ensures CreatedText(r) == "" <==> r.createdAt in {Null, Text(""), Flt("")}
  {
    if r.createdAt.Int? {
      DecimalCanonical(r.createdAt.i);
    }
  }

  /** `x` sorts no later than `y`. */
  predicate Before(x: Review, y: Review) {
    LexLe(CreatedText(x), CreatedText(y))
  }

  predicate Ascending(s: seq<Review>) {
    forall i, j :: 0 <= i < j < |s| ==> Before(s[i], s[j])
  }

  /** Newest first: non-increasing by `created_at` text. */
  predicate Descending(s: seq<Review>) {
    forall i, j :: 0 <= i < j < |s| ==> Before(s[j], s[i])
  }

  /** `sort_by!` on the `created_at` text, in place; the order of equal keys is not promised. */
  method SortByCreated(a: array<Review>)
    modifies a
    ensures Ascending(a[..])
    ensures multiset(a[..]) == multiset(old(a[..]))
  {
    var i := 0;
    while i < a.Length
      invariant 0 <= i <= a.Length
      invariant forall k, l :: 0 <= k < l < i ==> Before(a[k], a[l])
      invariant multiset(a[..]) == multiset(old(a[..]))
    {
      InsertLast(a, i);
      i := i + 1;
    }
  }

  /** `s[..i + 1]` is in order except for the element at `j`, which is no later than any above it. */
  predicate SortedAround(s: seq<Review>, j: nat, i: nat)
    requires j <= i < |s|
  {
    && (forall k, l :: 0 <= k < l <= i && k != j && l != j ==> Before(s[k], s[l]))
    && (forall l :: j < l <= i ==> Before(s[j], s[l]))
  }

  /** One swap of the insertion pass: the element at `j` moves down to `j - 1`, past one that sorts later. */
  lemma SwapDown(s: seq<Review>, r: seq<Review>, j: nat, i: nat)
    requires 0 < j <= i < |s| && r == s[j - 1 := s[j]][j := s[j - 1]]
    requires SortedAround(s, j, i) && Before(s[j], s[j - 1])
    ensures SortedAround(r, j - 1, i)
    ensures multiset(r[..i + 1]) == multiset(s[..i + 1])
    ensures r[i + 1..] == s[i + 1..]
  {
    assert r[..i + 1] == s[..i + 1][j - 1 := s[j]][j := s[j - 1]];
  }

  /** Where the pass stops, `s[..i + 1]` is in order. */
  lemma SettledSorted(s: seq<Review>, j: nat, i: nat)
    requires j <= i < |s| && SortedAround(s, j, i)
    requires j == 0 || Before(s[j - 1], s[j])
    ensures forall k, l :: 0 <= k < l <= i ==> Before(s[k], s[l])
  {
    forall k | 0 <= k < j - 1
      ensures Before(s[k], s[j])
    {
      LexLeTransitive(CreatedText(s[k]), CreatedText(s[j - 1]), CreatedText(s[j]));
    }
  }

  /** One pass of insertion: `a[i]` moves down into the sorted `a[..i]` until the one below it is no later. */
  method InsertLast(a: array<Review>, i: nat)
    requires i < a.Length
    requires forall k, l :: 0 <= k < l < i ==> Before(a[k], a[l])
    modifies a
    ensures forall k, l :: 0 <= k < l <= i ==> Before(a[k], a[l])
    ensures multiset(a[..i + 1]) == multiset(old(a[..i + 1]))
    ensures a[i + 1..] == old(a[i + 1..])
    ensures multiset(a[..]) == multiset(old(a[..]))
  {
    var j := i;
    while 0 < j && !Before(a[j - 1], a[j])
      invariant 0 <= j <= i
      invariant SortedAround(a[..], j, i)
      invariant multiset(a[..i + 1]) == multiset(old(a[..i + 1]))
      invariant a[i + 1..] == old(a[i + 1..])
    {
      LexLeTotal(CreatedText(a[j - 1]), CreatedText(a[j]));
      ghost var before := a[..];
      a[j - 1], a[j] := a[j], a[j - 1];
      SwapDown(before, a[..], j, i);
      j := j - 1;
    }
    SettledSorted(a[..], j, i);
    assert a[..] == a[..i + 1] + a[i + 1..];
    assert old(a[..]) == old(a[..i + 1]) + old(a[i + 1..]);
  }

  /** The elements of `s` in the opposite order. */
  function Reversed<T>(s: seq<T>): (r: seq<T>)
    ensures |r| == |s|
    ensures forall k :: 0 <= k < |s| ==> r[k] == s[|s| - 1 - k]
  {
    if s == [] then [] else Reversed(s[1..]) + [s[0]]
  }

  /** `reverse!`, in place. */
  method Reverse(a: array<Review>)
    modifies a
    ensures a[..] == Reversed(old(a[..]))
  {
    ghost var before := a[..];
    var lo, hi := 0, a.Length - 1;
    while lo < hi
      invariant 0 <= lo <= hi + 1 && lo + hi == a.Length - 1 && |before| == a.Length
      invariant forall k {:trigger a[k]} :: 0 <= k < a.Length ==> a[k] == if lo <= k <= hi then before[k] else before[a.Length - 1 - k]
    {
      a[lo], a[hi] := a[hi], a[lo];
      lo, hi := lo + 1, hi - 1;
    }
  }

  /** Reversing keeps the records and turns an ascending order into a descending one. */
  lemma ReversedAscending(s: seq<Review>)
    requires Ascending(s)
    ensures Descending(Reversed(s))
    ensures multiset(Reversed(s)) == multiset(s)
  {
    ReversedMultiset(s);
  }

  lemma {:induction false} ReversedMultiset<T>(s: seq<T>)
    ensures multiset(Reversed(s)) == multiset(s)
    decreases |s|
  {
    if s != [] {
      ReversedMultiset(s[1..]);
      assert s == [s[0]] + s[1..];
    }
  }

  /** In a newest-first list, a record without a `created_at` is followed only by records without one. */
  lemma UnstampedLast(s: seq<Review>, i: nat, j: nat)
    requires Descending(s) && i < j < |s| && CreatedText(s[i]) == ""
    ensures CreatedText(s[j]) == ""
  {
    LexLeEmpty(CreatedText(s[j]));
  }

  /** A nil `created_at` reads as the empty text. */
  lemma NilCreatedIsEmpty(r: Review)
    requires r.createdAt == Null
    ensures CreatedText(r) == "" && forall x :: Before(x, r) ==> CreatedText(x) == ""
  {
    forall x | Before(x, r)
      ensures CreatedText(x) == ""
    {
      LexLeEmpty(CreatedText(x));
    }
  }

  /**
    Lines 154-179 of the export script: group the images, build one record
    per review row, sort by `created_at` text and reverse.
   */
  method Assemble(reviewRows: seq<Row>, imageRows: seq<Row>) returns (reviews: seq<Review>)
    ensures |reviews| == |reviewRows|
    ensures multiset(reviews) == multiset(ExpectedRecords(reviewRows, imageRows))
    ensures Descending(reviews)
    ensures forall r :: r in reviews ==> r.images == ImagesFor(imageRows, r.id)
  {
    var byReview := GroupImages(imageRows);
    var built := Records(reviewRows, byReview);
    RecordsAreExpected(reviewRows, byReview, imageRows);
    ghost var expected := ExpectedRecords(reviewRows, imageRows);
    assert built == expected;
    var a := new Review[|built|](i requires 0 <= i < |built| => built[i]);
    assert a[..] == built;
    SortByCreated(a);
    ghost var sorted := a[..];
    Reverse(a);
    reviews := a[..];
    ReversedAscending(sorted);
    forall r | r in reviews
      ensures r.images == ImagesFor(imageRows, r.id)
    {
      assert r in multiset(expected);
    }
  }
}

=== FILE: row_scanner.dfy ===
/**
  Splitting a statement's value list into rows (`parse_values_list`). The
  `StringScanner` becomes a cursor `p` into the text; each `skip`/`scan` with
  a regular expression becomes a function giving where the match ends, or
  `None` when the pattern does not match at the cursor.
 */
module RowScanner {
  import opened Wrappers
  import opened Lexical
  import opened ValueTokenizer

  /** One row: its fields in order. Column names come from the caller. */
  type Row = seq<Value>

  /** Where the pattern `\s*c` ends when tried at `p`, or `None` when it does not match. */
  function SpacedChar(s: string, p: nat, c: char): (r: Option<nat>)
    requires p <= |s|
    ensures r.Some? <==> SpaceEnd(s, p) < |s| && s[SpaceEnd(s, p)] == c
    ensures r.Some? ==> r.value == SpaceEnd(s, p) + 1
  {
    var a := SpaceEnd(s, p);
    if a < |s| && s[a] == c then Some(a + 1) else None
  }

  /** Where the pattern `\s*,\s*` ends when tried at `p`, or `None`. */
  function Separator(s: string, p: nat): (r: Option<nat>)
    requires p <= |s|
    ensures r.Some? <==> SpacedChar(s, p, ',').Some?
    ensures r.Some? ==> r.value == SpaceEnd(s, SpaceEnd(s, p) + 1)
  {
    match SpacedChar(s, p, ',')
    case Some(a) => Some(SpaceEnd(s, a))
    case None => None
  }

  /** Where the pattern `[^\)]*` ends when tried at `p`: at the next `)`, or at the end. */
  function CloseAt(s: string, p: nat): (e: nat)
    requires p <= |s|
    ensures p <= e <= |s|
    ensures forall i :: p <= i < e ==> s[i] != ')'
    ensures e == |s| || s[e] == ')'
    decreases |s| - p
  {
    if p < |s| && s[p] != ')' then CloseAt(s, p + 1) else p
  }

  /**
    The recovery of a malformed row: a scan of the pattern `[^\)]*`, then a
    skip of `\)`. The cursor ends just past the first `)` from `p`, or at
    the end of the input when there is none.
   */
  function UntilClose(s: string, p: nat): (e: nat)
    requires p <= |s|
    ensures p <= e <= |s|
    ensures e == |s| || (p < e && s[e - 1] == ')')
    ensures forall i :: p <= i < e - 1 ==> s[i] != ')'
    ensures e == |s| && (|s| == p || s[|s| - 1] != ')') ==> forall i :: p <= i < |s| ==> s[i] != ')'
  {
    var c := CloseAt(s, p);
    if c < |s| then c + 1 else c
  }

  /** One pass of the field loop: the field read, and whether a comma asks for another. */
  datatype FieldEnd = More(value: Value, next: nat) | Last(value: Value, next: nat)

  /**
    One pass of the field loop at `p`: read a field, then a comma continues
    the row, a `)` ends it, and anything else is discarded up to and including
    the next `)` (or to the end), which also ends it.
   */
  function FieldStep(s: string, p: nat): (f: FieldEnd)
    requires p <= |s|
    ensures p <= f.next <= |s|
    ensures f.More? ==> p < f.next
  {
    var a := SpaceEnd(s, p);
    var v := ValueAt(s, a);
    var b := SpaceEnd(s, v.1);
    match Separator(s, b)
    case Some(n) => More(v.0, n)
    case None =>
      match SpacedChar(s, b, ')')
      case Some(n) => Last(v.0, n)
      case None => Last(v.0, UntilClose(s, b))
  }

  /** What the field loop gives: the row and where the cursor is left. */
  datatype Fields = Fields(values: Row, next: nat)

  /**
    The field loop from `p`, with the fields `acc` already read: the whole
    row and where the cursor is left.
   */
  function FieldsAfter(s: string, p: nat, acc: Row): (r: Fields)
    requires p <= |s|
    ensures |r.values| > |acc| && p <= r.next <= |s|
    decreases |s| - p
  {
    match FieldStep(s, p)
    case Last(v, n) => Fields(acc + [v], n)
    case More(v, n) => FieldsAfter(s, n, acc + [v])
  }

  /** The row whose `(` ends just before `p`. Every row has at least one field. */
  function FieldsFrom(s: string, p: nat): (r: Fields)
    requires p <= |s|
    ensures |r.values| >= 1 && p <= r.next <= |s|
  {
    FieldsAfter(s, p, [])
  }

  /** One pass of the outer loop: a skipped character or `;`, or a row read. */
  datatype RowEnd = Skip(next: nat) | Emit(row: Row, next: nat)

  /**
    One pass of the outer loop at `p`, before the end: an optional comma, then
    a `;` is skipped, a `(` starts a row, and any other character is dropped.
   */
  function RowStep(s: string, p: nat): (r: RowEnd)
    requires p < |s|
    ensures p < r.next <= |s|
  {
    var q := match Separator(s, p) case Some(n) => n case None => p;
    match SpacedChar(s, q, ';')
    case Some(n) => Skip(n)
    case None =>
      match SpacedChar(s, q, '(')
      case Some(n) =>
        var f := FieldsFrom(s, n);
        Emit(f.values, f.next)
      // `getch` at the end of the input reads nothing.
      case None => Skip(if q < |s| then q + 1 else q)
  }

  /** The outer loop from `p`, with the rows `acc` already read: all the rows, in the order they occur. */
  function RowsAfter(s: string, p: nat, acc: seq<Row>): seq<Row>
    requires p <= |s|
    decreases |s| - p
  {
    if p == |s| then acc
    else
      match RowStep(s, p)
      case Skip(n) => RowsAfter(s, n, acc)
      case Emit(row, n) => RowsAfter(s, n, acc + [row])
  }

  /** `parse_values_list`: at most one row per character of the value list, and every row has a field. */
  function RowsOf(values: string): (rows: seq<Row>)
    ensures |rows| <= |values|
    ensures forall i :: 0 <= i < |rows| ==> |rows[i]| >= 1
  {
    RowsBound(values, 0, []);
    RowsHaveFields(values, 0, []);
    RowsAfter(values, 0, [])
  }

  /**
    One pass of the field loop of `parse_values_list`. It is a method, not a
    call to `FieldStep`, because reading the value runs the quoted-string loop
    of `ReadValue`.
   */
  method ReadField(s: string, p: nat) returns (f: FieldEnd)
    requires p <= |s|
    ensures f == FieldStep(s, p)
  {
    var next := SpaceEnd(s, p);
    var value;
    value, next := ReadValue(s, next);
    next := SpaceEnd(s, next);
    var comma := Separator(s, next);
    if comma.Some? {
      return More(value, comma.value);
    }
    var close := SpacedChar(s, next, ')');
    if close.Some? {
      return Last(value, close.value);
    }
    return Last(value, UntilClose(s, next));
  }

  /** The field loop of `parse_values_list`, started just after a row's `(`. */
  method ReadRow(s: string, start: nat) returns (row: Row, next: nat)
    requires start <= |s|
    ensures row == FieldsFrom(s, start).values && next == FieldsFrom(s, start).next
  {
    row := [];
    next := start;
    while true
      invariant start <= next <= |s|
      invariant FieldsAfter(s, next, row) == FieldsFrom(s, start)
      decreases |s| - next
    {
      var f := ReadField(s, next);
      row := row + [f.value];
      if f.Last? {
        return row, f.next;
      }
      next := f.next;
    }
  }

  /** `parse_values_list`: the outer loop over rows, with the field loop in `ReadRow`. */
  method ParseValuesList(values: string) returns (rows: seq<Row>)
    ensures rows == RowsOf(values)
  {
    rows := [];
    var pos := 0;
    while pos < |values|
      invariant pos <= |values|
      invariant RowsAfter(values, pos, rows) == RowsOf(values)
      decreases |values| - pos
    {
      ghost var at := pos;
      var comma := Separator(values, pos);
      if comma.Some? {
        pos := comma.value;
      }
      var semicolon := SpacedChar(values, pos, ';');
      if semicolon.Some? {
        pos := semicolon.value;
        assert RowStep(values, at) == Skip(pos);
        continue;
      }
      var open := SpacedChar(values, pos, '(');
      if open.None? {
        if pos < |values| {
          pos := pos + 1;
        }
        assert RowStep(values, at) == Skip(pos);
        continue;
      }
      var row;
      row, pos := ReadRow(values, open.value);
      assert RowStep(values, at) == Emit(row, pos);
      rows := rows + [row];
    }
  }

  /** Every pass of the outer loop moves the cursor, so a value list of length `n` has at most `n` rows. */
  lemma {:induction false} RowsBound(s: string, p: nat, acc: seq<Row>)
    requires p <= |s|
    ensures |RowsAfter(s, p, acc)| <= |acc| + (|s| - p)
    decreases |s| - p
  {
    if p < |s| {
      RowsBound(s, RowStep(s, p).next, if RowStep(s, p).Emit? then acc + [RowStep(s, p).row] else acc);
    }
  }

  /** Every row the outer loop appends has at least one field. */
  lemma {:induction false} RowsHaveFields(s: string, p: nat, acc: seq<Row>)
    requires p <= |s|
    requires forall i :: 0 <= i < |acc| ==> |acc[i]| >= 1
    ensures forall i :: 0 <= i < |RowsAfter(s, p, acc)| ==> |RowsAfter(s, p, acc)[i]| >= 1
    decreases |s| - p
  {
    if p < |s| {
      var step := RowStep(s, p);
      if step.Emit? {
        RowsHaveFields(s, step.next, acc + [step.row]);
      } else {
        RowsHaveFields(s, step.next, acc);
      }
    }
  }

  /** Rows are appended in the order they are met: the rows read so far stay in front, unchanged. */
  lemma {:induction false} RowsKeepOrder(s: string, p: nat, acc: seq<Row>)
    requires p <= |s|
    ensures RowsAfter(s, p, acc) == acc + RowsAfter(s, p, [])
    decreases |s| - p
  {
    if p < |s| {
      var n := RowStep(s, p).next;
      if RowStep(s, p).Emit? {
        var row := RowStep(s, p).row;
        RowsKeepOrder(s, n, acc + [row]);
        RowsKeepOrder(s, n, [row]);
        assert [] + [row] == [row];
        AppendAssociates(acc, [row], RowsAfter(s, n, []));
      } else {
        RowsKeepOrder(s, n, acc);
      }
    }
  }

  // ---------------------------------------------------------------------
  // A value list as a dump writes it: `(v, ...),(v, ...)` with no spaces.

  /** A row a dump can write: at least one field, each of them writable. */
  predicate WritableRow(r: Row) {
    |r| >= 1 && forall i :: 0 <= i < |r| ==> Writable(r[i])
  }

  /** The fields of a row joined by commas. */
  function WriteFields(r: Row): string
    requires |r| >= 1
    decreases |r|
  {
    if |r| == 1 then WriteValue(r[0]) else WriteValue(r[0]) + "," + WriteFields(r[1..])
  }

  function WriteRow(r: Row): string
    requires |r| >= 1
  {
    "(" + WriteFields(r) + ")"
  }

  /** The rows after the first, each preceded by a comma. */
  function MoreRows(rows: seq<Row>): string
    requires forall i :: 0 <= i < |rows| ==> |rows[i]| >= 1
    decreases |rows|
  {
    if rows == [] then "" else "," + WriteRow(rows[0]) + MoreRows(rows[1..])
  }

  /** A value list: the rows joined by commas. */
  function WriteRows(rows: seq<Row>): string
    requires forall i :: 0 <= i < |rows| ==> |rows[i]| >= 1
  {
    if rows == [] then "" else WriteRow(rows[0]) + MoreRows(rows[1..])
  }

  /** A written value at `p` ahead of a `,` or `)` is read whole, with no spaces around it. */
  lemma WrittenFieldRead(v: Value, d: char, s: string, p: nat)
    requires Writable(v) && (d == ',' || d == ')')
    requires TextAt(s, p, WriteValue(v) + [d])
    ensures p + |WriteValue(v)| < |s| && s[p + |WriteValue(v)|] == d
    ensures SpaceEnd(s, p) == p
    ensures ValueAt(s, p).0 == v && ValueAt(s, p).1 == p + |WriteValue(v)|
    ensures SpaceEnd(s, p + |WriteValue(v)|) == p + |WriteValue(v)|
  {
    WrittenValueStart(v);
    WordThenChar(WriteValue(v), d, s, p);
    ValueRoundTrip(v, s, p);
  }

  /** A non-empty word followed by one character: the word is there, and so is the character after it. */
  lemma WordThenChar(w: string, d: char, s: string, p: nat)
    requires w != [] && TextAt(s, p, w + [d])
    ensures TextAt(s, p, w) && p + |w| < |s| && s[p + |w|] == d && s[p] == w[0]
  {
    TextAtSplit(s, p, w, [d]);
    assert s[p + |w| + 0] == [d][0];
    assert s[p + 0] == w[0];
  }

  /** A written field followed by a comma and a non-space is a pass of the field loop that asks for more. */
  lemma FieldStepOnComma(v: Value, s: string, p: nat)
    requires Writable(v) && TextAt(s, p, WriteValue(v) + ",")
    requires p + |WriteValue(v)| + 1 < |s| && !IsSpace(s[p + |WriteValue(v)| + 1])
    ensures FieldStep(s, p).More? && FieldStep(s, p).value == v
    ensures FieldStep(s, p).next == p + |WriteValue(v)| + 1
  {
    WrittenFieldRead(v, ',', s, p);
    assert SpaceEnd(s, p + |WriteValue(v)| + 1) == p + |WriteValue(v)| + 1;
  }

  /** A written field followed by `)` is the last pass of the field loop. */
  lemma FieldStepOnClose(v: Value, s: string, p: nat)
    requires Writable(v) && TextAt(s, p, WriteValue(v) + ")")
    ensures FieldStep(s, p) == Last(v, p + |WriteValue(v)| + 1)
  {
    WrittenFieldRead(v, ')', s, p);
  }

  /** The first character of written fields is the first character of the first value. */
  lemma WriteFieldsStart(r: Row)
    requires WritableRow(r)
    ensures WriteFields(r) != [] && WriteValue(r[0]) != [] && WriteFields(r)[0] == WriteValue(r[0])[0]
    ensures !IsSpace(WriteFields(r)[0])
  {
    WrittenValueStart(r[0]);
  }

  /** The tail of a writable row is writable. */
  lemma WritableTail(r: Row)
    requires WritableRow(r) && |r| >= 2
    ensures WritableRow(r[1..])
  {
    assert forall i :: 0 <= i < |r[1..]| ==> r[1..][i] == r[i + 1];
  }

  /** Written fields split after the first value and its comma. */
  lemma WriteFieldsSplit(r: Row, s: string, p: nat)
    requires WritableRow(r) && |r| >= 2 && TextAt(s, p, WriteFields(r) + ")")
    ensures TextAt(s, p, WriteValue(r[0]) + ",")
    ensures TextAt(s, p + |WriteValue(r[0])| + 1, WriteFields(r[1..]) + ")")
    ensures p + |WriteValue(r[0])| + 1 < |s| && !IsSpace(s[p + |WriteValue(r[0])| + 1])
    ensures |WriteFields(r)| == |WriteValue(r[0])| + 1 + |WriteFields(r[1..])|
  {
    WriteFieldsParts(r);
    WritableTail(r);
    WriteFieldsStart(r[1..]);
    WordCommaRest(WriteValue(r[0]), WriteFields(r[1..]), s, p);
  }

  /** Written fields of two or more values, closed by `)`: the first value and its comma, then the rest closed by `)`. */
  lemma WriteFieldsParts(r: Row)
    requires |r| >= 2
    ensures WriteFields(r) + ")" == (WriteValue(r[0]) + ",") + (WriteFields(r[1..]) + ")")
  {
  }

  /** A word, a comma and a non-empty rest closed by `)`: each part is there, and the rest starts right after the comma. */
  lemma WordCommaRest(w: string, rest: string, s: string, p: nat)
    requires rest != [] && TextAt(s, p, (w + ",") + (rest + ")"))
    ensures TextAt(s, p, w + ",") && TextAt(s, p + |w| + 1, rest + ")")
    ensures p + |w| + 1 < |s| && s[p + |w| + 1] == rest[0]
  {
    TextAtSplit(s, p, w + ",", rest + ")");
    assert s[p + |w + ","| + 0] == (rest + ")")[0];
  }

  /** Unfolding the field loop by one pass that asks for more. */
  lemma FieldsAfterMore(s: string, p: nat, acc: Row)
    requires p <= |s| && FieldStep(s, p).More?
    ensures FieldsAfter(s, p, acc) == FieldsAfter(s, FieldStep(s, p).next, acc + [FieldStep(s, p).value])
  {
  }

  lemma ConsAppend<T>(acc: seq<T>, r: seq<T>)
    requires |r| >= 1
    ensures (acc + [r[0]]) + r[1..] == acc + r
  {
    assert [r[0]] + r[1..] == r;
    AppendAssociates(acc, [r[0]], r[1..]);
  }

  lemma SingleAppend<T>(acc: seq<T>, r: seq<T>)
    requires |r| == 1
    ensures acc + [r[0]] == acc + r
  {
    assert [r[0]] == r;
  }

  /** Round trip of one row's fields: written fields and the closing `)` read back as the same row. */
  lemma {:induction false} FieldsRoundTrip(r: Row, s: string, p: nat, acc: Row)
    requires WritableRow(r) && TextAt(s, p, WriteFields(r) + ")")
    ensures FieldsAfter(s, p, acc).values == acc + r
    ensures FieldsAfter(s, p, acc).next == p + |WriteFields(r)| + 1
    decreases |r|
  {
    if |r| == 1 {
      FieldStepOnClose(r[0], s, p);
      SingleAppend(acc, r);
    } else {
      WriteFieldsSplit(r, s, p);
      WritableTail(r);
      FieldStepOnComma(r[0], s, p);
      var q := p + |WriteValue(r[0])| + 1;
      FieldsAfterMore(s, p, acc);
      FieldsRoundTrip(r[1..], s, q, acc + [r[0]]);
      ConsAppend(acc, r);
    }
  }

  /** Unfolding the outer loop by one pass that reads a row. */
  lemma RowsAfterEmit(s: string, p: nat, acc: seq<Row>, row: Row, n: nat)
    requires p < |s| && RowStep(s, p).Emit? && RowStep(s, p).row == row && RowStep(s, p).next == n
    ensures n <= |s| && RowsAfter(s, p, acc) == RowsAfter(s, n, acc + [row])
  {
  }

  /** A written row splits into its `(` and its fields with the closing `)`. */
  lemma WrittenRowSplit(r: Row, s: string, p: nat)
    requires WritableRow(r) && TextAt(s, p, WriteRow(r))
    ensures p < |s| && s[p] == '('
    ensures TextAt(s, p + 1, WriteFields(r) + ")")
  {
    assert WriteRow(r) == "(" + (WriteFields(r) + ")");
    TextAtSplit(s, p, "(", WriteFields(r) + ")");
    assert s[p + 0] == "("[0];
  }

  /** At a `(` the outer loop finds neither a comma nor a `;`, and starts a row. */
  lemma OpenParenRead(s: string, p: nat)
    requires p < |s| && s[p] == '('
    ensures Separator(s, p).None? && SpacedChar(s, p, ';').None? && SpacedChar(s, p, '(') == Some(p + 1)
  {
    assert SpaceEnd(s, p) == p;
  }

  /** At a `(` the outer loop reads a row from the character after it. */
  lemma RowStepAtParen(s: string, p: nat)
    requires p < |s| && s[p] == '('
    ensures RowStep(s, p).Emit?
    ensures RowStep(s, p).row == FieldsFrom(s, p + 1).values && RowStep(s, p).next == FieldsFrom(s, p + 1).next
  {
    OpenParenRead(s, p);
  }

  /** A written row at `p`: a `(` that is neither `;` nor a comma, then the row's fields back. */
  lemma WrittenRowRead(r: Row, s: string, p: nat)
    requires WritableRow(r) && TextAt(s, p, WriteRow(r))
    ensures p < |s| && s[p] == '('
    ensures FieldsFrom(s, p + 1).values == r && FieldsFrom(s, p + 1).next == p + |WriteRow(r)|
  {
    WrittenRowSplit(r, s, p);
    FieldsRoundTrip(r, s, p + 1, []);
    EmptyAppend(r);
  }

  lemma EmptyAppend<T>(r: seq<T>)
    ensures [] + r == r && r + [] == r
  {
  }

  /** The first row of a written value list is one pass of the outer loop. */
  lemma RowStepOnRow(r: Row, s: string, p: nat)
    requires WritableRow(r) && TextAt(s, p, WriteRow(r))
    ensures p < |s| && RowStep(s, p).Emit?
    ensures RowStep(s, p).row == r && RowStep(s, p).next == p + |WriteRow(r)|
  {
    WrittenRowRead(r, s, p);
    OpenParenRead(s, p);
  }

  /** A comma and a written row are one pass of the outer loop. */
  lemma RowStepOnCommaRow(r: Row, s: string, p: nat)
    requires WritableRow(r) && TextAt(s, p, "," + WriteRow(r))
    ensures p < |s| && RowStep(s, p).Emit?
    ensures RowStep(s, p).row == r && RowStep(s, p).next == p + 1 + |WriteRow(r)|
  {
    TextAtSplit(s, p, ",", WriteRow(r));
    assert s[p + 0] == ","[0];
    WrittenRowRead(r, s, p + 1);
    OpenParenRead(s, p + 1);
    assert SpaceEnd(s, p) == p;
    assert SpaceEnd(s, p + 1) == p + 1;
  }

  /** Rows written after the first, each behind a comma. */
  predicate WritableRows(rows: seq<Row>) {
    forall i :: 0 <= i < |rows| ==> WritableRow(rows[i])
  }

  lemma WritableRowsTail(rows: seq<Row>)
    requires WritableRows(rows) && rows != []
    ensures WritableRow(rows[0]) && WritableRows(rows[1..])
  {
    assert forall i :: 0 <= i < |rows[1..]| ==> rows[1..][i] == rows[i + 1];
  }

  /** Written rows split after the first row and the comma before it. */
  lemma MoreRowsSplit(rows: seq<Row>, s: string, p: nat)
    requires WritableRows(rows) && rows != [] && TextAt(s, p, MoreRows(rows))
    ensures TextAt(s, p, "," + WriteRow(rows[0]))
    ensures TextAt(s, p + 1 + |WriteRow(rows[0])|, MoreRows(rows[1..]))
    ensures |MoreRows(rows)| == 1 + |WriteRow(rows[0])| + |MoreRows(rows[1..])|
  {
    var head, tail := "," + WriteRow(rows[0]), MoreRows(rows[1..]);
    assert MoreRows(rows) == head + tail;
    TextAtSplit(s, p, head, tail);
  }

  /** Written rows at `p`, each behind a comma, are read in order, and the outer loop goes on at `q`, just after them. */
  lemma {:induction false} RowsReadThrough(rows: seq<Row>, s: string, p: nat, q: nat, acc: seq<Row>)
    requires WritableRows(rows) && TextAt(s, p, MoreRows(rows)) && q == p + |MoreRows(rows)|
    ensures q <= |s| && RowsAfter(s, p, acc) == RowsAfter(s, q, acc + rows)
    decreases |rows|
  {
    if rows == [] {
      assert q == p && acc + rows == acc;
    } else {
      WritableRowsTail(rows);
      var n := p + 1 + |WriteRow(rows[0])|;
      MoreRowsStep(rows, s, p, n);
      RowsReadThrough(rows[1..], s, n, q, acc + [rows[0]]);
      ReadThroughStep(s, p, n, q, acc, rows);
    }
  }

  /** A row read in one pass, then the rows after it read through: the two compose. */
  lemma ReadThroughStep(s: string, p: nat, n: nat, q: nat, acc: seq<Row>, rows: seq<Row>)
    requires rows != [] && p < |s| && n <= q <= |s|
    requires RowStep(s, p) == Emit(rows[0], n)
    requires RowsAfter(s, n, acc + [rows[0]]) == RowsAfter(s, q, (acc + [rows[0]]) + rows[1..])
    ensures RowsAfter(s, p, acc) == RowsAfter(s, q, acc + rows)
  {
    RowsAfterEmit(s, p, acc, rows[0], n);
    ConsAppend(acc, rows);
  }

  /** The written rows after the first, running to the end of the input, read back as themselves. */
  lemma MoreRowsRoundTrip(rows: seq<Row>, s: string, p: nat, acc: seq<Row>)
    requires WritableRows(rows) && TextAt(s, p, MoreRows(rows)) && p + |MoreRows(rows)| == |s|
    ensures RowsAfter(s, p, acc) == acc + rows
  {
    RowsReadThrough(rows, s, p, |s|, acc);
  }

  /** The first of several written rows is read as one pass, leaving the cursor on the rest at `n`. */
  lemma MoreRowsStep(rows: seq<Row>, s: string, p: nat, n: nat)
    requires WritableRows(rows) && rows != [] && TextAt(s, p, MoreRows(rows))
    requires n == p + 1 + |WriteRow(rows[0])|
    ensures n + |MoreRows(rows[1..])| == p + |MoreRows(rows)| && TextAt(s, n, MoreRows(rows[1..]))
    ensures p < |s| && RowStep(s, p) == Emit(rows[0], n)
  {
    WritableRowsTail(rows);
    MoreRowsSplit(rows, s, p);
    RowStepOnCommaRow(rows[0], s, p);
  }

  lemma TextAtWhole(s: string)
    ensures TextAt(s, 0, s)
  {
  }

  /**
    Round trip of a whole value list: rows written as a dump writes them,
    `(…),(…)`, read back as the same rows in the same order.
   */
  lemma RowsRoundTrip(rows: seq<Row>)
    requires WritableRows(rows)
    ensures RowsOf(WriteRows(rows)) == rows
  {
    var s := WriteRows(rows);
    if rows == [] {
      assert s == [];
    } else {
      WritableRowsTail(rows);
      var n := |WriteRow(rows[0])|;
      TextAtWhole(s);
      FirstRowStep(rows, s, n);
      RowsAfterRow(s, 0, [], rows[0], n, rows[1..]);
      ConsAppend([], rows);
      EmptyAppend(rows);
    }
  }

  /** The first of written rows at the start of `s` is one pass of the outer loop, leaving the cursor at `n`, on the rest. */
  lemma FirstRowStep(rows: seq<Row>, s: string, n: nat)
    requires WritableRows(rows) && rows != [] && TextAt(s, 0, WriteRows(rows)) && n == |WriteRow(rows[0])|
    ensures n + |MoreRows(rows[1..])| == |WriteRows(rows)| && TextAt(s, n, MoreRows(rows[1..]))
    ensures 0 < |s| && RowStep(s, 0) == Emit(rows[0], n)
  {
    WritableRowsTail(rows);
    TextAtSplit(s, 0, WriteRow(rows[0]), MoreRows(rows[1..]));
    RowStepOnRow(rows[0], s, 0);
  }

  // ---------------------------------------------------------------------
  // Recovery from a malformed row.

  /** No `)` and no `'` in `s` from `p` up to `c`, where the `)` at `c` closes the row. */
  predicate ClosedPlainly(s: string, p: nat, c: nat) {
    && p <= c < |s| && s[c] == ')'
    && forall i :: p <= i < c ==> s[i] != ')' && s[i] != '\''
  }

  /** Inside such a stretch, reading a value never passes the closing `)`. */
  lemma ValueWithin(s: string, a: nat, c: nat)
    requires ClosedPlainly(s, a, c)
    ensures ValueAt(s, a).1 <= c
  {
    assert s[c] != 'L' && s[c] != 'l' && s[c] != '\'' && s[c] != ',';
  }

  /** Inside such a stretch, a run of spaces never passes the closing `)`. */
  lemma SpaceWithin(s: string, a: nat, c: nat)
    requires a <= c < |s| && s[c] == ')'
    ensures SpaceEnd(s, a) <= c
  {
    assert !IsSpace(s[c]);
  }

  /** Inside such a stretch, the recovery scan stops exactly at the closing `)`. */
  lemma CloseWithin(s: string, b: nat, c: nat)
    requires ClosedPlainly(s, b, c)
    ensures CloseAt(s, b) == c
  {
  }

  /** One pass of the field loop inside such a stretch: it stays inside, or ends just after the `)`. */
  lemma FieldStepWithin(s: string, p: nat, c: nat)
    requires ClosedPlainly(s, p, c)
    ensures FieldStep(s, p).More? ==> FieldStep(s, p).next <= c
    ensures FieldStep(s, p).Last? ==> FieldStep(s, p).next == c + 1
  {
    var a := SpaceEnd(s, p);
    SpaceWithin(s, p, c);
    ValueWithin(s, a, c);
    var b := SpaceEnd(s, ValueAt(s, a).1);
    SpaceWithin(s, ValueAt(s, a).1, c);
    CloseWithin(s, b, c);
    assert s[c] != ',';
    assert b < c ==> SpaceEnd(s, b + 1) <= c by {
      if b < c {
        SpaceWithin(s, b + 1, c);
      }
    }
  }

  /**
    Recovery: whatever the fields of a row hold, as long as no quote opens a
    string, the field loop ends just after the first `)`.
   */
  lemma {:induction false} FieldsWithin(s: string, p: nat, c: nat, acc: Row)
    requires ClosedPlainly(s, p, c)
    ensures FieldsAfter(s, p, acc).next == c + 1
    decreases c - p
  {
    FieldStepWithin(s, p, c);
    if FieldStep(s, p).More? {
      FieldsAfterMore(s, p, acc);
      FieldsWithin(s, FieldStep(s, p).next, c, acc + [FieldStep(s, p).value]);
    }
  }

  /** A `(` at `p` whose row closes plainly at `c` yields its fields as one row and resumes after `c`. */
  lemma PlainRowStep(s: string, p: nat, c: nat)
    requires p < |s| && s[p] == '(' && ClosedPlainly(s, p + 1, c)
    ensures RowStep(s, p) == Emit(FieldsFrom(s, p + 1).values, c + 1)
  {
    RowStepAtParen(s, p);
    FieldsWithin(s, p + 1, c, []);
    var r := RowStep(s, p);
    assert r == Emit(r.row, r.next);
  }

  /** At `,(` the outer loop skips the comma and reads a row from the character after the `(`. */
  lemma CommaParenRead(s: string, p: nat)
    requires p + 1 < |s| && s[p] == ',' && s[p + 1] == '('
    ensures RowStep(s, p).Emit?
    ensures RowStep(s, p).row == FieldsFrom(s, p + 2).values && RowStep(s, p).next == FieldsFrom(s, p + 2).next
  {
    assert SpaceEnd(s, p) == p;
    assert SpaceEnd(s, p + 1) == p + 1;
    OpenParenRead(s, p + 1);
  }

  /** `,(` at `p`, and the row after it closes plainly at `c`. */
  predicate CommaRowAt(s: string, p: nat, c: nat) {
    p + 1 < |s| && s[p] == ',' && s[p + 1] == '(' && ClosedPlainly(s, p + 2, c)
  }

  /** The same behind a separating comma: `,(` whose row closes plainly at `c` yields one row and resumes after `c`. */
  lemma PlainRowStepAfterComma(s: string, p: nat, c: nat)
    requires CommaRowAt(s, p, c)
    ensures RowStep(s, p) == Emit(FieldsFrom(s, p + 2).values, c + 1)
  {
    FieldsWithin(s, p + 2, c, []);
    CommaParenRead(s, p);
  }

  /** Written rows at the start of the input are read first, in order, whatever follows them. */
  lemma WrittenPrefixRead(pre: seq<Row>, s: string)
    requires WritableRows(pre) && TextAt(s, 0, WriteRows(pre))
    ensures |WriteRows(pre)| <= |s|
    ensures RowsAfter(s, 0, []) == RowsAfter(s, |WriteRows(pre)|, pre)
  {
    if pre != [] {
      WritableRowsTail(pre);
      var n := |WriteRow(pre[0])|;
      FirstRowStep(pre, s, n);
      RowsAfterEmit(s, 0, [], pre[0], n);
      RowsReadThrough(pre[1..], s, n, |WriteRows(pre)|, [] + [pre[0]]);
      ConsAppend([], pre);
      EmptyAppend(pre);
    }
  }

  /** Written rows, each behind a comma, at `n` and up to the end of the input. */
  predicate WrittenToEnd(rows: seq<Row>, s: string, n: nat) {
    WritableRows(rows) && TextAt(s, n, MoreRows(rows)) && n + |MoreRows(rows)| == |s|
  }

  /** A row read at `p`, followed by written rows up to the end of the input: all of them, in order. */
  lemma RowsAfterRow(s: string, p: nat, acc: seq<Row>, row: Row, n: nat, rows: seq<Row>)
    requires p < |s| && RowStep(s, p) == Emit(row, n) && WrittenToEnd(rows, s, n)
    ensures RowsAfter(s, p, acc) == acc + [row] + rows
  {
    RowsAfterEmit(s, p, acc, row, n);
    MoreRowsRoundTrip(rows, s, n, acc + [row]);
  }

  /**
    A malformed row does not disturb the rows after it: a row `(` g `)` whose
    text g has no `)` and no quote still yields one (partial) row, and the
    well-formed rows after it read back unchanged and in order.
   */
  lemma MalformedRowResyncs(g: string, rows: seq<Row>)
    requires forall i :: 0 <= i < |g| ==> g[i] != ')' && g[i] != '\''
    requires WritableRows(rows)
    ensures var out := RowsOf("(" + g + ")" + MoreRows(rows));
      |out| == |rows| + 1 && out[1..] == rows
  {
    var s := "(" + g + ")" + MoreRows(rows);
    MalformedRowText(g, MoreRows(rows));
    PlainRowStep(s, 0, |g| + 1);
    var row := FieldsFrom(s, 1).values;
    RowsAfterRow(s, 0, [], row, |g| + 2, rows);
    PrependOne(row, rows);
  }

  lemma PrependOne<T>(x: T, rest: seq<T>)
    ensures |([] + [x]) + rest| == |rest| + 1 && (([] + [x]) + rest)[1..] == rest
  {
    assert ([] + [x]) + rest == [x] + rest;
  }

  /** The characters of `(` g `)` followed by more text. */
  lemma MalformedRowText(g: string, more: string)
    requires forall i :: 0 <= i < |g| ==> g[i] != ')' && g[i] != '\''
    ensures var s := "(" + g + ")" + more;
      && s[0] == '('
      && ClosedPlainly(s, 1, |g| + 1)
      && TextAt(s, |g| + 2, more) && |g| + 2 + |more| == |s|
  {
    var s := "(" + g + ")" + more;
    assert forall i :: 1 <= i < |g| + 1 ==> s[i] == g[i - 1];
    assert forall i :: 0 <= i < |more| ==> s[|g| + 2 + i] == more[i];
  }

  /**
    A malformed row anywhere in the list: after written rows, a row `,(` g `)`
    whose text g has no `)` and no quote still yields one (partial) row in its
    place, and the rows before and after it read back unchanged and in order.
   */
  lemma MalformedRowAfterRows(pre: seq<Row>, g: string, post: seq<Row>, s: string)
    requires forall i :: 0 <= i < |g| ==> g[i] != ')' && g[i] != '\''
    requires WritableRows(pre) && WritableRows(post)
    requires s == WriteRows(pre) + ",(" + g + ")" + MoreRows(post)
    ensures RowsOf(s) == pre + [FieldsFrom(s, |WriteRows(pre)| + 2).values] + post
  {
    var w := |WriteRows(pre)|;
    MalformedRowTextAfter(WriteRows(pre), g, MoreRows(post), s);
    RowsAroundPlainRow(pre, post, s, w, w + 2 + |g|);
  }

  /**
    The layout of a value list around a row that closes plainly: written rows
    `pre` up to `w`, then `,(` and a row up to the `)` at `c`, then written
    rows `post` up to the end.
   */
  predicate PlainRowBetween(pre: seq<Row>, post: seq<Row>, s: string, w: nat, c: nat) {
    && WritableRows(pre) && WritableRows(post) && w == |WriteRows(pre)|
    && PlainRowLayout(s, WriteRows(pre), MoreRows(post), c)
  }

  /** The text `before` at the start of `s`, then `,(` and a row up to the `)` at `c`, then `after` up to the end. */
  predicate PlainRowLayout(s: string, before: string, after: string, c: nat) {
    && TextAt(s, 0, before)
    && |before| + 1 < |s| && s[|before|] == ',' && s[|before| + 1] == '(' && ClosedPlainly(s, |before| + 2, c)
    && TextAt(s, c + 1, after) && c + 1 + |after| == |s|
  }

  /** Rows around a row that closes plainly: the rows before it, the row, and the rows after it, in order. */
  lemma RowsAroundPlainRow(pre: seq<Row>, post: seq<Row>, s: string, w: nat, c: nat)
    requires PlainRowBetween(pre, post, s, w, c)
    ensures RowsAfter(s, 0, []) == pre + [FieldsFrom(s, w + 2).values] + post
  {
    WrittenPrefixRead(pre, s);
    RowsAfterPlainRow(pre, post, s, w, c);
  }

  /** From the `,(` at `w` on: the row that closes plainly at `c`, then the written rows after it. */
  lemma RowsAfterPlainRow(acc: seq<Row>, post: seq<Row>, s: string, w: nat, c: nat)
    requires CommaRowAt(s, w, c) && WrittenToEnd(post, s, c + 1)
    ensures RowsAfter(s, w, acc) == acc + [FieldsFrom(s, w + 2).values] + post
  {
    PlainRowStepAfterComma(s, w, c);
    RowsAfterRow(s, w, acc, FieldsFrom(s, w + 2).values, c + 1, post);
  }

  /** The characters of `w`, then `,(` g `)`, then more text. */
  lemma MalformedRowTextAfter(w: string, g: string, more: string, s: string)
    requires forall i :: 0 <= i < |g| ==> g[i] != ')' && g[i] != '\''
    requires s == w + ",(" + g + ")" + more
    ensures PlainRowLayout(s, w, more, |w| + 2 + |g|)
  {
    assert forall i :: 0 <= i < |w| ==> s[i] == w[i];
    assert forall i :: |w| + 2 <= i < |w| + 2 + |g| ==> s[i] == g[i - |w| - 2];
    assert forall i :: 0 <= i < |more| ==> s[|w| + |g| + 3 + i] == more[i];
  }
}

=== FILE: statement_locator.dfy ===
/**
  Locating the value list of one table's `INSERT` statement inside the dump
  (`statement_end` and `extract_values` of script/export_reviews_yaml.rb).
 */
module StatementLocator {
  import opened Wrappers

  /** Where the scan stands relative to single-quoted literals. */
  datatype Quote = Outside | InString | Escaped

  /**
    The state after reading `ch` in state `q` (a `;` read outside ends the
    scan before this): only a quote read inside a literal leads outside, and
    only a backslash read inside a literal leads to an escape.
   */
  function Step(q: Quote, ch: char): (r: Quote)
    ensures r == Outside <==> (q == Outside && ch != '\'') || (q == InString && ch == '\'')
    ensures r == Escaped <==> q == InString && ch == '\\'
  {
    match q
    case Outside => if ch == '\'' then InString else Outside
    case InString => if ch == '\\' then Escaped else if ch == '\'' then Outside else InString
    case Escaped => InString
  }

  /** The quote state reached after reading `sql[start..i]` from outside any literal. */
  function StateAt(sql: string, start: nat, i: nat): Quote
    requires start <= i <= |sql|
    decreases i - start
  {
    if i == start then Outside else Step(StateAt(sql, start, i - 1), sql[i - 1])
  }

  /**
    The scan stays outside every literal as long as it has read no quote, and
    it is in an escape only just after a backslash.
   */
  lemma {:induction false} StateAtBeforeQuote(sql: string, start: nat, i: nat)
    requires start <= i <= |sql|
    ensures (forall j :: start <= j < i ==> sql[j] != '\'') ==> StateAt(sql, start, i) == Outside
    ensures StateAt(sql, start, i) == Escaped ==> start < i && sql[i - 1] == '\\'
    decreases i - start
  {
    if i > start {
      StateAtBeforeQuote(sql, start, i - 1);
    }
  }

  /** Position `i` holds a `;` that lies outside every literal opened since `start`. */
  predicate Terminates(sql: string, start: nat, i: nat) {
    start <= i < |sql| && sql[i] == ';' && StateAt(sql, start, i) == Outside
  }

  /** `r` is the first terminator at or after `start`, or `None` when there is none. */
  predicate IsFirstTerminator(sql: string, start: nat, r: Option<nat>) {
    match r
    case Some(i) => Terminates(sql, start, i) && forall j :: start <= j < i ==> !Terminates(sql, start, j)
    case None => forall j :: start <= j < |sql| ==> !Terminates(sql, start, j)
  }

  /** There is at most one first terminator. */
  lemma FirstTerminatorUnique(sql: string, start: nat, r: Option<nat>, r': Option<nat>)
    requires IsFirstTerminator(sql, start, r) && IsFirstTerminator(sql, start, r')
    ensures r == r'
  {
    if r.Some? && r'.Some? {
      assert !(r.value < r'.value) && !(r'.value < r.value);
    }
  }

  /** `statement_end`: the character-by-character scan with the flags `in_string` and `escape`. */
  method StatementEnd(sql: string, start: nat) returns (r: Option<nat>)
    ensures IsFirstTerminator(sql, start, r)
  {
    var inString, escape := false, false;
    var idx := start;
    while idx < |sql|
      invariant start <= idx
      invariant idx <= |sql| || idx == start
      invariant idx <= |sql| ==> StateAt(sql, start, idx) == (if !inString then Outside else if escape then Escaped else InString)
      invariant escape ==> inString
      invariant forall j :: start <= j < idx ==> !Terminates(sql, start, j)
      decreases |sql| - idx
    {
      var ch := sql[idx];
      if inString {
        if escape {
          escape := false;
        } else if ch == '\\' {
          escape := true;
        } else if ch == '\'' {
          inString := false;
        }
      } else {
        if ch == '\'' {
          inString := true;
        } else if ch == ';' {
          return Some(idx);
        }
      }
      idx := idx + 1;
    }
    return None;
  }

  /**
    Reference reading of the same scan, literal by literal: from the position
    just after an opening quote, the position just after its closing quote
    (a backslash takes the next character with it), or the end of the text
    when the literal is never closed.
   */
  function LiteralEnd(sql: string, k: nat): (e: nat)
    requires k <= |sql|
    ensures k <= e <= |sql|
    decreases |sql| - k
  {
    if k == |sql| then |sql|
    else if sql[k] == '\\' then (if k + 1 == |sql| then |sql| else LiteralEnd(sql, k + 2))
    else if sql[k] == '\'' then k + 1
    else LiteralEnd(sql, k + 1)
  }

  /** Reference terminator search: skip whole literals, stop at the first bare `;`. */
  function NextTerminator(sql: string, i: nat): (r: Option<nat>)
    ensures r.Some? ==> i <= r.value < |sql| && sql[r.value] == ';'
    decreases |sql| - i
  {
    if i >= |sql| then None
    else if sql[i] == ';' then Some(i)
    else if sql[i] == '\'' then NextTerminator(sql, LiteralEnd(sql, i + 1))
    else NextTerminator(sql, i + 1)
  }

  /**
    Inside a literal no position is outside the literal (so no `;` there ends
    the statement, and an escaped quote does not close it) until the literal's end.
   */
  lemma {:induction false} LiteralIsInert(sql: string, start: nat, k: nat)
    requires start <= k <= |sql| && StateAt(sql, start, k) == InString
    ensures forall j :: k <= j < LiteralEnd(sql, k) ==> StateAt(sql, start, j) != Outside
    ensures LiteralEnd(sql, k) < |sql| ==> StateAt(sql, start, LiteralEnd(sql, k)) == Outside
    decreases |sql| - k
  {
    if k < |sql| {
      if sql[k] == '\\' {
        if k + 1 < |sql| {
          assert StateAt(sql, start, k + 1) == Escaped;
          LiteralIsInert(sql, start, k + 2);
        }
      } else if sql[k] != '\'' {
        LiteralIsInert(sql, start, k + 1);
      }
    }
  }

  /** A backslash inside a literal makes the next character inert: `\'` leaves the literal open. */
  lemma EscapedQuoteStaysOpen(sql: string, start: nat, k: nat)
    requires start <= k && k + 2 <= |sql| && StateAt(sql, start, k) == InString
    requires sql[k] == '\\'
    ensures StateAt(sql, start, k + 2) == InString
    ensures !Terminates(sql, start, k + 1)
  {
  }

  lemma {:induction false} NextTerminatorFrom(sql: string, start: nat, i: nat)
    requires start <= i <= |sql|
    requires i < |sql| ==> StateAt(sql, start, i) == Outside
    requires forall j :: start <= j < i ==> !Terminates(sql, start, j)
    ensures IsFirstTerminator(sql, start, NextTerminator(sql, i))
    decreases |sql| - i
  {
    if i < |sql| && sql[i] != ';' {
      if sql[i] == '\'' {
        LiteralIsInert(sql, start, i + 1);
        NextTerminatorFrom(sql, start, LiteralEnd(sql, i + 1));
      } else {
        NextTerminatorFrom(sql, start, i + 1);
      }
    }
  }

  /** The literal-skipping reading finds exactly the first terminator of the state machine. */
  lemma NextTerminatorIsFirst(sql: string, start: nat)
    ensures IsFirstTerminator(sql, start, NextTerminator(sql, start))
  {
    if start <= |sql| {
      NextTerminatorFrom(sql, start, start);
    }
  }

  /** `pat` occurs in `s` at position `i`. */
  predicate OccursAt(s: string, pat: string, i: nat) {
    i + |pat| <= |s| && s[i..i + |pat|] == pat
  }

  /** `String#index` from position `i`: the first occurrence of `pat` at or after `i`. */
  function IndexFrom(s: string, pat: string, i: nat): (r: Option<nat>)
    ensures r.Some? ==> i <= r.value && OccursAt(s, pat, r.value)
    ensures r.Some? ==> forall j :: i <= j < r.value ==> !OccursAt(s, pat, j)
    ensures r.None? ==> forall j :: i <= j ==> !OccursAt(s, pat, j)
    decreases |s| - i
  {
    if i + |pat| > |s| then None
    else if s[i..i + |pat|] == pat then Some(i)
    else IndexFrom(s, pat, i + 1)
  }

  /** The text that introduces a table's value list: the table name sits after `INSERT INTO` and a backquote. */
  function Marker(table: string): (m: string)
    ensures |m| == |table| + 22 && m[13..13 + |table|] == table
    ensures m[12] == '`' && m[13 + |table|] == '`' && m[|m| - 1] == ' '
  {
    "INSERT INTO `" + table + "` VALUES "
  }

  /**
    The value list of `table`'s statement, read with the literal-skipping
    reference: nothing when the marker occurs nowhere.
   */
  function ValuesOf(sql: string, table: string): (r: Option<string>)
    ensures (forall i :: !OccursAt(sql, Marker(table), i)) ==> r.None?
  {
    match IndexFrom(sql, Marker(table), 0)
    case None => None
    case Some(i) =>
      var start := i + |Marker(table)|;
      match NextTerminator(sql, start)
      case None => None
      case Some(e) => Some(sql[start..e])
  }

  /**
    A value list found is a slice of the dump that starts right after an
    occurrence of the marker and is followed by a `;`.
   */
  lemma ValuesOfIsSlice(sql: string, table: string)
    requires ValuesOf(sql, table).Some?
    ensures exists i: nat :: && OccursAt(sql, Marker(table), i)
                             && var v := ValuesOf(sql, table).value;
                             && i + |Marker(table)| + |v| < |sql|
                             && sql[i + |Marker(table)|..i + |Marker(table)| + |v|] == v
                             && sql[i + |Marker(table)| + |v|] == ';'
  {
    var i := IndexFrom(sql, Marker(table), 0).value;
    assert OccursAt(sql, Marker(table), i);
  }

  /**
    `extract_values`: the scan with `statement_end` gives the value list of
    the literal-skipping reading (`ValuesOfFirstTerminator` says what that is).
   */
  method ExtractValues(sql: string, table: string) returns (r: Option<string>)
    ensures r == ValuesOf(sql, table)
  {
    var marker := Marker(table);
    var found := IndexFrom(sql, marker, 0);
    if found.None? {
      return None;
    }
    var start := found.value + |marker|;
    var endIdx := StatementEnd(sql, start);
    NextTerminatorIsFirst(sql, start);
    FirstTerminatorUnique(sql, start, endIdx, NextTerminator(sql, start));
    if endIdx.None? {
      return None;
    }
    r := Some(sql[start..endIdx.value]);
  }

  /**
    `extract_values` gives `None` when the marker is missing or no terminator
    follows its first occurrence; otherwise the value list is exactly the text
    between the end of the marker's first occurrence and the first terminator
    after it.
   */
  lemma ValuesOfFirstTerminator(sql: string, table: string)
    ensures IndexFrom(sql, Marker(table), 0).None? ==> ValuesOf(sql, table).None?
    ensures IndexFrom(sql, Marker(table), 0).Some? ==>
      var start := IndexFrom(sql, Marker(table), 0).value + |Marker(table)|;
      var r := ValuesOf(sql, table);
      && (r.None? <==> forall j :: start <= j < |sql| ==> !Terminates(sql, start, j))
      && (r.Some? ==> && start + |r.value| < |sql|
                      && r.value == sql[start..start + |r.value|]
                      && IsFirstTerminator(sql, start, Some(start + |r.value|)))
  {
    var found := IndexFrom(sql, Marker(table), 0);
    if found.Some? {
      var start := found.value + |Marker(table)|;
      NextTerminatorFound(sql, start);
      var e := NextTerminator(sql, start);
      if e.Some? {
        var v := sql[start..e.value];
        assert ValuesOf(sql, table) == Some(v);
        assert Some(start + |v|) == e;
      } else {
        assert ValuesOf(sql, table) == None;
      }
    }
  }

  /** The literal-skipping reading finds a terminator exactly when there is one, and then the first. */
  lemma NextTerminatorFound(sql: string, start: nat)
    ensures NextTerminator(sql, start).None? <==> forall j :: start <= j < |sql| ==> !Terminates(sql, start, j)
    ensures NextTerminator(sql, start).Some? ==> IsFirstTerminator(sql, start, NextTerminator(sql, start))
  {
    NextTerminatorIsFirst(sql, start);
    if NextTerminator(sql, start).Some? {
      assert Terminates(sql, start, NextTerminator(sql, start).value);
    }
  }
}

=== FILE: value_tokenizer.dfy ===
/**
  Reading one field of a row (the body of the field loop in
  `parse_values_list`): `NULL` in any letter case, a single-quoted string with
  backslash escapes, or a bare token classified as nil, float, integer or text.

  The scanner's cursor is a position `p` in the value list `s`; each reading
  function gives what it read together with the position it stops at.
 */
module ValueTokenizer {
  import opened Lexical
  import StatementLocator

  /**
    A decoded field. `Null` is Ruby's `nil`; a float keeps the token it was
    read from, since the float's own value is not part of this model.
   */
  datatype Value = Null | Int(i: int) | Flt(raw: string) | Text(s: string)

  /** The regex `/NULL/i` matches at `p`. */
  predicate NullAt(s: string, p: nat) {
    && p + 4 <= |s|
    && (s[p] == 'N' || s[p] == 'n')
    && (s[p + 1] == 'U' || s[p + 1] == 'u')
    && (s[p + 2] == 'L' || s[p + 2] == 'l')
    && (s[p + 3] == 'L' || s[p + 3] == 'l')
  }

  /** Where the regex `/[^,\)]+/` stops when tried at `p` (at `p` itself when it does not match). */
  function BareEnd(s: string, p: nat): (e: nat)
    requires p <= |s|
    ensures p <= e <= |s|
    ensures forall i :: p <= i < e ==> s[i] != ',' && s[i] != ')'
    ensures e == |s| || s[e] == ',' || s[e] == ')'
    decreases |s| - p
  {
    if p < |s| && s[p] != ',' && s[p] != ')' then BareEnd(s, p + 1) else p
  }

  /**
    The character a backslash escape stands for: always one character, and a
    different one only for `n`, `r` and `t`; an unknown escape keeps the character.
   */
  function Unescape(c: char): (r: string)
    ensures |r| == 1
    ensures r == [c] <==> c != 'n' && c != 'r' && c != 't'
  {
    match c
    case 'n' => "\n"
    case 'r' => "\r"
    case 't' => "\t"
    case '\\' => "\\"
    case '\'' => "'"
    case '"' => "\""
    case _ => [c]
  }

  /**
    The rest of a quoted string whose opening quote came just before `p`: the
    decoded text, and the position just after the first unescaped quote, or
    the end of the input when there is none. A backslash at the very end adds
    nothing.
   */
  function Unquote(s: string, p: nat): (r: (string, nat))
    requires p <= |s|
    ensures p <= r.1 <= |s|
    ensures r.1 == |s| || (p < r.1 && s[r.1 - 1] == '\'')
    decreases |s| - p
  {
    if p == |s| then ("", p)
    else if s[p] == '\\' then
      if p + 1 == |s| then ("", |s|)
      else
        var u := Unquote(s, p + 2);
        (Unescape(s[p + 1]) + u.0, u.1)
    else if s[p] == '\'' then ("", p + 1)
    else
      var u := Unquote(s, p + 1);
      ([s[p]] + u.0, u.1)
  }

  /** `/\A-?\d+\z/`: an optional minus sign followed by at least one digit and nothing else. */
  predicate IsIntLiteral(token: string) {
    || (|token| >= 1 && AllDigits(token))
    || (|token| >= 2 && token[0] == '-' && AllDigits(token[1..]))
  }

  /** `String#to_i` on a token that `IsIntLiteral` accepts. */
  function IntValue(token: string): int
    requires IsIntLiteral(token)
  {
    if token[0] == '-' then -(DigitsValue(token[1..]) as int) else DigitsValue(token)
  }

  /**
    Classification of a stripped bare token: nil exactly for the empty token,
    a float exactly when it holds a `.`, an integer only for `-?\d+`, and
    otherwise the token itself as text.
   */
  function Classify(token: string): (v: Value)
    ensures v == Null <==> token == []
    ensures v.Flt? <==> token != [] && '.' in token
    ensures v.Flt? ==> v.raw == token
    ensures v.Int? <==> token != [] && '.' !in token && IsIntLiteral(token)
    ensures v.Int? ==> v.i == IntValue(token)
    ensures v.Text? ==> v.s == token && !IsIntLiteral(token)
  {
    if token == [] then Null
    else if '.' in token then Flt(token)
    else if IsIntLiteral(token) then Int(IntValue(token))
    else Text(token)
  }

  /** `/NULL/i` is the word `NULL` with its letters compared without regard to case. */
  lemma NullAtIgnoresCase(s: string, p: nat)
    ensures NullAt(s, p) <==> MatchesIgnoringCase(s, p, "NULL")
  {
    if MatchesIgnoringCase(s, p, "NULL") {
      assert UpperAscii(s[p + 0]) == UpperAscii("NULL"[0]);
      assert UpperAscii(s[p + 1]) == UpperAscii("NULL"[1]);
      assert UpperAscii(s[p + 2]) == UpperAscii("NULL"[2]);
      assert UpperAscii(s[p + 3]) == UpperAscii("NULL"[3]);
    }
  }

  /**
    `to_i` followed by `to_s` gives an integer token back unchanged when it is
    written as `Integer#to_s` writes it (no leading zero, no `-0`).
   */
  lemma IntLiteralRoundTrip(t: string)
    requires IsIntLiteral(t)
    requires if t[0] == '-' then CanonicalDigits(t[1..]) && t[1..] != "0" else CanonicalDigits(t)
    ensures Decimal(IntValue(t)) == t
  {
    if t[0] == '-' {
      CanonicalDigitsRoundTrip(t[1..]);
      LeadingDigitPositive(t[1..]);
      assert t == "-" + t[1..];
    } else {
      CanonicalDigitsRoundTrip(t);
    }
  }

  /** The field at `p` (the row scanner has already skipped the `\s` before it), and where it ends. */
  function ValueAt(s: string, p: nat): (r: (Value, nat))
    requires p <= |s|
    ensures p <= r.1 <= |s|
  {
    if NullAt(s, p) then (Null, p + 4)
    else if p < |s| && s[p] == '\'' then
      var u := Unquote(s, p + 1);
      (Text(u.0), u.1)
    else
      // A missing token (`nil`) and an empty stripped token both read as `Null`.
      var e := BareEnd(s, p);
      (Classify(Strip(s[p..e])), e)
  }

  lemma ValueAtQuoted(s: string, p: nat)
    requires p < |s| && s[p] == '\''
    ensures ValueAt(s, p).0 == Text(Unquote(s, p + 1).0) && ValueAt(s, p).1 == Unquote(s, p + 1).1
  {
  }

  lemma ValueAtBare(s: string, p: nat)
    requires p < |s| && s[p] != '\'' && !NullAt(s, p)
    ensures ValueAt(s, p).0 == Classify(Strip(s[p..BareEnd(s, p)])) && ValueAt(s, p).1 == BareEnd(s, p)
  {
  }

  /** The character loop over a quoted string, started just after the opening quote. */
  method ReadQuoted(s: string, start: nat) returns (str: string, next: nat)
    requires start <= |s|
    ensures str == Unquote(s, start).0 && next == Unquote(s, start).1
  {
    var i := start;
    str := "";
    while i < |s|
      invariant start <= i <= |s|
      invariant str + Unquote(s, i).0 == Unquote(s, start).0
      invariant Unquote(s, i).1 == Unquote(s, start).1
      decreases |s| - i
    {
      ghost var before, at := str, i;
      var ch := s[i];
      i := i + 1;
      if ch == '\\' {
        // `getch` gives nil at the end of the input, and `nil.to_s` adds nothing.
        if i < |s| {
          var esc := s[i];
          i := i + 1;
          str := str + Unescape(esc);
          AppendAssociates(before, Unescape(esc), Unquote(s, i).0);
        } else {
          assert str + Unquote(s, i).0 == before + Unquote(s, at).0;
        }
      } else if ch == '\'' {
        assert before + Unquote(s, at).0 == str;
        next := i;
        return;
      } else {
        str := str + [ch];
        AppendAssociates(before, [ch], Unquote(s, i).0);
      }
    }
    assert str + Unquote(s, i).0 == str;
    next := i;
  }

  lemma AppendAssociates<T>(a: seq<T>, b: seq<T>, c: seq<T>)
    ensures a + (b + c) == (a + b) + c
  {
  }

  /** The field reader: `NULL`, a quoted string, or a bare token. */
  method ReadValue(s: string, pos: nat) returns (v: Value, next: nat)
    requires pos <= |s|
    ensures v == ValueAt(s, pos).0 && next == ValueAt(s, pos).1
  {
    if NullAt(s, pos) {
      return Null, pos + 4;
    }
    if pos < |s| && s[pos] == '\'' {
      var str;
      str, next := ReadQuoted(s, pos + 1);
      return Text(str), next;
    }
    next := BareEnd(s, pos);
    var token := Strip(s[pos..next]);
    v := Classify(token);
  }

  /** How a dump writes a character inside a quoted string. */
  function EscapeChar(c: char): string {
    match c
    case '\n' => "\\n"
    case '\r' => "\\r"
    case '\t' => "\\t"
    case '\\' => "\\\\"
    case '\'' => "\\'"
    case '"' => "\\\""
    case _ => [c]
  }

  function EscapeText(s: string): string
    decreases |s|
  {
    if s == [] then [] else EscapeChar(s[0]) + EscapeText(s[1..])
  }

  /** A text value written as a dump writes it: quoted, with backslash escapes. */
  function QuoteText(s: string): string {
    "'" + EscapeText(s) + "'"
  }

  /** The text `w` stands in `s` at position `p`. */
  predicate TextAt(s: string, p: nat, w: string) {
    p + |w| <= |s| && forall i {:trigger w[i]} :: 0 <= i < |w| ==> s[p + i] == w[i]
  }

  lemma TextAtSplit(s: string, p: nat, a: string, b: string)
    requires TextAt(s, p, a + b)
    ensures TextAt(s, p, a) && TextAt(s, p + |a|, b)
  {
    forall i | 0 <= i < |a|
      ensures s[p + i] == a[i]
    {
      assert s[p + i] == (a + b)[i];
    }
    var q := p + |a|;
    forall i | 0 <= i < |b|
      ensures s[q + i] == b[i]
    {
      assert s[p + (|a| + i)] == (a + b)[|a| + i];
    }
  }

  /** The escape table and the decoding table are inverse on the six escaped characters. */
  lemma EscapeCharInverse(c: char)
    ensures |EscapeChar(c)| == 1 ==> EscapeChar(c) == [c] && c != '\\' && c != '\''
    ensures |EscapeChar(c)| == 2 ==> EscapeChar(c)[0] == '\\' && Unescape(EscapeChar(c)[1]) == [c]
  {
  }

  /** A character other than a backslash or a quote is taken as it is. */
  lemma PlainCharDecodes(s: string, p: nat)
    requires p < |s| && s[p] != '\\' && s[p] != '\''
    ensures Unquote(s, p).0 == [s[p]] + Unquote(s, p + 1).0
    ensures Unquote(s, p).1 == Unquote(s, p + 1).1
  {
  }

  /** A backslash and the character after it decode through the escape table. */
  lemma EscapePairDecodes(s: string, p: nat)
    requires p + 1 < |s| && s[p] == '\\'
    ensures Unquote(s, p).0 == Unescape(s[p + 1]) + Unquote(s, p + 2).0
    ensures Unquote(s, p).1 == Unquote(s, p + 2).1
  {
  }

  /** Reading one written character back gives that character. */
  lemma EscapeCharDecodes(c: char, s: string, p: nat)
    requires TextAt(s, p, EscapeChar(c))
    ensures Unquote(s, p).0 == [c] + Unquote(s, p + |EscapeChar(c)|).0
    ensures Unquote(s, p).1 == Unquote(s, p + |EscapeChar(c)|).1
  {
    EscapeCharInverse(c);
    var e := EscapeChar(c);
    assert s[p + 0] == e[0];
    if |e| == 2 {
      assert s[p + 1] == e[1];
      EscapePairDecodes(s, p);
    } else {
      PlainCharDecodes(s, p);
    }
  }

  /** One step of decoding written text: its first character comes back, and the rest follows. */
  lemma UnquoteStep(c: char, more: string, s: string, p: nat)
    requires TextAt(s, p, EscapeChar(c) + more)
    ensures TextAt(s, p + |EscapeChar(c)|, more)
    ensures Unquote(s, p).0 == [c] + Unquote(s, p + |EscapeChar(c)|).0
    ensures Unquote(s, p).1 == Unquote(s, p + |EscapeChar(c)|).1
  {
    TextAtSplit(s, p, EscapeChar(c), more);
    EscapeCharDecodes(c, s, p);
  }

  /** Decoding undoes the escape table; commas and semicolons inside the quotes pass through. */
  lemma UnquoteEscaped(x: string, s: string, p: nat)
    requires TextAt(s, p, EscapeText(x) + "'")
    ensures Unquote(s, p).0 == x
    ensures Unquote(s, p).1 == p + |EscapeText(x)| + 1
  {
    var q := p + |EscapeText(x)|;
    TextAtSplit(s, p, EscapeText(x), "'");
    UnquoteThrough(x, s, p, q);
    assert s[q + 0] == "'"[0];
    assert x + Unquote(s, q).0 == x + [];
  }

  /** Escaped text at `p` decodes back to itself, and decoding then goes on from where that text ends. */
  lemma {:induction false} UnquoteThrough(x: string, s: string, p: nat, e: nat)
    requires TextAt(s, p, EscapeText(x)) && e == p + |EscapeText(x)|
    ensures Unquote(s, p).0 == x + Unquote(s, e).0
    ensures Unquote(s, p).1 == Unquote(s, e).1
    decreases |x|
  {
    if x == [] {
      assert x + Unquote(s, p).0 == Unquote(s, p).0;
    } else {
      var c, y := x[0], x[1..];
      var q := p + |EscapeChar(c)|;
      assert EscapeText(x) == EscapeChar(c) + EscapeText(y);
      UnquoteStep(c, EscapeText(y), s, p);
      UnquoteThrough(y, s, q, e);
      assert Unquote(s, p).1 == Unquote(s, q).1 == Unquote(s, e).1;
      ConsThrough(x, Unquote(s, p).0, Unquote(s, q).0, Unquote(s, e).0);
    }
  }

  /** A character decoded in front of a text that decodes `x[1..]` and then `u`: `x` and then `u`. */
  lemma ConsThrough(x: string, a: string, b: string, u: string)
    requires x != [] && a == [x[0]] + b && b == x[1..] + u
    ensures a == x + u
  {
    AppendAssociates([x[0]], x[1..], u);
    assert [x[0]] + x[1..] == x;
  }

  /** An escape outside the table keeps its character and drops the backslash. */
  lemma UnknownEscapeKeepsChar(s: string, p: nat)
    requires p + 2 <= |s| && s[p] == '\\' && s[p + 1] !in "nrt\\'\""
    ensures Unquote(s, p).0 == [s[p + 1]] + Unquote(s, p + 2).0
    ensures Unquote(s, p).1 == Unquote(s, p + 2).1
  {
  }

  /**
    The quoted-string loop stops exactly where the statement scan leaves the
    literal: just after the first quote that no backslash escapes, or at the
    end of the input when there is none.
   */
  lemma {:induction false} UnquoteStopsAtLiteralEnd(s: string, p: nat)
    requires p <= |s|
    ensures Unquote(s, p).1 == StatementLocator.LiteralEnd(s, p)
    decreases |s| - p
  {
    if p < |s| {
      if s[p] == '\\' {
        if p + 1 < |s| {
          UnquoteStopsAtLiteralEnd(s, p + 2);
        }
      } else if s[p] != '\'' {
        UnquoteStopsAtLiteralEnd(s, p + 1);
      }
    }
  }

  /** The locator's occurrence of a marker and the scanner's text in place are one fact. */
  lemma OccursAtIsTextAt(s: string, pat: string, i: nat)
    ensures StatementLocator.OccursAt(s, pat, i) <==> TextAt(s, i, pat)
  {
    if i + |pat| <= |s| {
      var w := s[i..i + |pat|];
      forall k | 0 <= k < |pat|
        ensures w[k] == s[i + k]
      {
      }
    }
  }

  /**
    An escaped text that is never closed, escapes and all, runs to the end of
    the input and decodes back to itself.
   */
  lemma UnterminatedRunsToEnd(x: string, s: string, p: nat)
    requires TextAt(s, p, EscapeText(x)) && p + |EscapeText(x)| == |s|
    ensures Unquote(s, p).0 == x && Unquote(s, p).1 == |s|
  {
    UnquoteThrough(x, s, p, |s|);
    assert x + Unquote(s, |s|).0 == x + [];
  }

  /** Without a quote or a backslash, a string never closed runs verbatim to the end of the input. */
  lemma {:induction false} UnterminatedPlainRunsToEnd(s: string, p: nat)
    requires p <= |s|
    requires forall i :: p <= i < |s| ==> s[i] != '\'' && s[i] != '\\'
    ensures Unquote(s, p).0 == s[p..] && Unquote(s, p).1 == |s|
    decreases |s| - p
  {
    if p < |s| {
      UnterminatedPlainRunsToEnd(s, p + 1);
      assert [s[p]] + s[p + 1..] == s[p..];
    }
  }

  /**
    An unpaired backslash that is the last character of the input adds
    nothing: escaped text `x` followed by it decodes to `x`, and decoding
    runs to the end.
   */
  lemma TrailingBackslashAddsNothing(x: string, s: string, p: nat)
    requires TextAt(s, p, EscapeText(x) + "\\") && p + |EscapeText(x)| + 1 == |s|
    ensures Unquote(s, p).0 == x && Unquote(s, p).1 == |s|
  {
    TextAtSplit(s, p, EscapeText(x), "\\");
    UnquoteThrough(x, s, p, |s| - 1);
    assert s[|s| - 1 + 0] == "\\"[0];
    assert x + Unquote(s, |s| - 1).0 == x + [];
  }

  /** The same after plain text: the characters before the unpaired backslash are copied as they are. */
  lemma {:induction false} PlainTrailingBackslash(s: string, p: nat)
    requires p < |s| && s[|s| - 1] == '\\'
    requires forall i :: p <= i < |s| - 1 ==> s[i] != '\'' && s[i] != '\\'
    ensures Unquote(s, p).0 == s[p..|s| - 1] && Unquote(s, p).1 == |s|
    decreases |s| - p
  {
    if p < |s| - 1 {
      PlainTrailingBackslash(s, p + 1);
      assert [s[p]] + s[p + 1..|s| - 1] == s[p..|s| - 1];
    }
  }

  /** A token with no `.` that does not end in a digit cannot be an integer literal, so it stays text. */
  lemma NonNumericWordIsText(t: string)
    requires t != [] && '.' !in t && !IsDigit(t[|t| - 1])
    ensures Classify(t) == Text(t)
  {
    if |t| >= 2 && t[0] == '-' {
      assert t[1..][|t| - 2] == t[|t| - 1];
    }
  }

  /** `Integer#to_s` read back as a bare token gives the same integer. */
  lemma ClassifyDecimal(n: int)
    ensures Classify(Decimal(n)) == Int(n)
  {
    if n < 0 {
      ClassifyNegative(-n);
    } else {
      ClassifyDigits(n);
    }
  }

  lemma ClassifyDigits(m: nat)
    ensures Classify(DigitsOf(m)) == Int(m)
  {
    DigitsRoundTrip(m);
    NoPoint(DigitsOf(m));
  }

  lemma ClassifyNegative(m: nat)
    requires m > 0
    ensures Classify("-" + DigitsOf(m)) == Int(-(m as int))
  {
    var d := "-" + DigitsOf(m);
    DigitsRoundTrip(m);
    assert d[1..] == DigitsOf(m);
    NoPoint(d);
  }

  /** An optional minus sign, `z` zeros, then the digits of `m`. */
  function SignedDigits(negative: bool, z: nat, m: nat): (t: string)
    ensures |t| >= 1 && (t[0] == '-' <==> negative)
  {
    (if negative then "-" else "") + Zeros(z) + DigitsOf(m)
  }

  /** `to_i` ignores leading zeros and reads `-0` as zero. */
  lemma ClassifySignedDigits(negative: bool, z: nat, m: nat)
    ensures Classify(SignedDigits(negative, z, m)) == Int(if negative then -(m as int) else m)
  {
    var d := Zeros(z) + DigitsOf(m);
    LeadingZerosIgnored(z, DigitsOf(m));
    DigitsRoundTrip(m);
    var t := (if negative then "-" else "") + d;
    assert SignedDigits(negative, z, m) == t;
    if negative {
      assert t[1..] == d;
    } else {
      assert t == d;
    }
    NoPoint(t);
  }

  /** Every `-?\d+` token has that shape, so `ClassifySignedDigits` covers them all. */
  lemma IntLiteralShape(token: string)
    requires IsIntLiteral(token)
    ensures exists negative: bool, z: nat, m: nat :: token == SignedDigits(negative, z, m)
  {
    var negative := token[0] == '-';
    var d := if negative then token[1..] else token;
    DigitsSplitZeros(d);
    var z: nat :| d == Zeros(z) + DigitsOf(DigitsValue(d));
    SignedShape(token, negative, d, Zeros(z), DigitsOf(DigitsValue(d)));
    assert token == SignedDigits(negative, z, DigitsValue(d));
  }

  lemma SignedShape(token: string, negative: bool, d: string, zs: string, ds: string)
    requires |token| >= 1 && negative == (token[0] == '-')
    requires d == (if negative then token[1..] else token) && d == zs + ds
    ensures token == (if negative then "-" else "") + zs + ds
  {
    if negative {
      assert token == [token[0]] + token[1..];
    }
  }

  /** Tokens `to_i` reads with leading zeros or a signed zero. */
  lemma ClassifyUnusualIntegers()
    ensures Classify("007") == Int(7)
    ensures Classify("-0") == Int(0)
    ensures Classify("-007") == Int(-7)
  {
    ClassifySignedDigits(false, 2, 7);
    assert SignedDigits(false, 2, 7) == "007";
    ClassifySignedDigits(true, 0, 0);
    assert SignedDigits(true, 0, 0) == "-0";
    ClassifySignedDigits(true, 2, 7);
    assert SignedDigits(true, 2, 7) == "-007";
  }

  /** A minus sign and digits hold no `.`. */
  lemma NoPoint(d: string)
    requires forall i :: 0 <= i < |d| ==> IsDigit(d[i]) || d[i] == '-'
    ensures '.' !in d
  {
  }

  /** The text of a float token as the dump writes it: digits, sign and at least one point. */
  predicate FloatToken(raw: string) {
    && '.' in raw
    && forall i :: 0 <= i < |raw| ==> IsDigit(raw[i]) || raw[i] == '.' || raw[i] == '-'
  }

  /** The values a dump can write back: every value but floats with an unusual token. */
  predicate Writable(v: Value) {
    v.Flt? ==> FloatToken(v.raw)
  }

  /** A value as a dump writes it. */
  function WriteValue(v: Value): string {
    match v
    case Null => "NULL"
    case Int(i) => Decimal(i)
    case Flt(raw) => raw
    case Text(s) => QuoteText(s)
  }

  /** A written value is not empty and does not start with `\s`, `,` or `)`. */
  lemma WrittenValueStart(v: Value)
    requires Writable(v)
    ensures WriteValue(v) != []
    ensures var c := WriteValue(v)[0]; !IsSpace(c) && c != ',' && c != ')'
  {
  }

  /** A field ends at `q`: the input ends there or a `,` or `)` follows. */
  predicate Delimited(s: string, q: nat) {
    q == |s| || (q < |s| && (s[q] == ',' || s[q] == ')'))
  }

  /** A word of digits, signs and points ahead of a delimiter is read whole as one bare token. */
  lemma BareWord(w: string, s: string, p: nat)
    requires w != [] && TextAt(s, p, w) && Delimited(s, p + |w|)
    requires forall k :: 0 <= k < |w| ==> IsDigit(w[k]) || w[k] == '.' || w[k] == '-'
    ensures !NullAt(s, p) && s[p] != '\''
    ensures BareEnd(s, p) == p + |w| && s[p..p + |w|] == w
  {
    assert s[p] == w[0];
    assert forall i :: p <= i < p + |w| ==> s[i] == w[i - p];
  }

  lemma NullRoundTrip(s: string, p: nat)
    requires TextAt(s, p, "NULL")
    ensures ValueAt(s, p) == (Null, p + 4)
  {
    var w := "NULL";
    assert s[p + 0] == w[0] && s[p + 1] == w[1] && s[p + 2] == w[2] && s[p + 3] == w[3];
  }

  lemma TextRoundTrip(x: string, s: string, p: nat)
    requires TextAt(s, p, QuoteText(x))
    ensures ValueAt(s, p).0 == Text(x) && ValueAt(s, p).1 == p + |QuoteText(x)|
  {
    assert QuoteText(x) == "'" + (EscapeText(x) + "'");
    TextAtSplit(s, p, "'", EscapeText(x) + "'");
    assert s[p + 0] == QuoteText(x)[0];
    UnquoteEscaped(x, s, p + 1);
    ValueAtQuoted(s, p);
  }

  /** A bare word ahead of a delimiter reads as the classification of its stripped text. */
  lemma BareRoundTrip(w: string, s: string, p: nat)
    requires w != [] && TextAt(s, p, w) && Delimited(s, p + |w|)
    requires forall k :: 0 <= k < |w| ==> IsDigit(w[k]) || w[k] == '.' || w[k] == '-'
    ensures ValueAt(s, p).0 == Classify(Strip(w)) && ValueAt(s, p).1 == p + |w|
  {
    BareWord(w, s, p);
    ValueAtBare(s, p);
    var t := s[p..BareEnd(s, p)];
    assert t == w;
    assert ValueAt(s, p).0 == Classify(Strip(t));
  }

  /** The text of a written integer is a bare word that classifies back to the integer. */
  lemma IntWord(i: int)
    ensures var w := Decimal(i);
      && w != []
      && (forall k :: 0 <= k < |w| ==> IsDigit(w[k]) || w[k] == '.' || w[k] == '-')
      && Classify(Strip(w)) == Int(i)
  {
    var w := Decimal(i);
    assert forall k :: 0 <= k < |w| ==> IsDigit(w[k]) || w[k] == '-';
    StripUnchanged(w);
    ClassifyDecimal(i);
  }

  lemma IntRoundTrip(i: int, s: string, p: nat)
    requires TextAt(s, p, Decimal(i)) && Delimited(s, p + |Decimal(i)|)
    ensures ValueAt(s, p).0 == Int(i) && ValueAt(s, p).1 == p + |Decimal(i)|
  {
    IntWord(i);
    BareRoundTrip(Decimal(i), s, p);
  }

  /** A float token is a bare word that classifies back to the same float. */
  lemma FloatWord(raw: string)
    requires FloatToken(raw)
    ensures Classify(Strip(raw)) == Flt(raw)
  {
    StripUnchanged(raw);
  }

  lemma FloatRoundTrip(raw: string, s: string, p: nat)
    requires FloatToken(raw) && TextAt(s, p, raw) && Delimited(s, p + |raw|)
    ensures ValueAt(s, p).0 == Flt(raw) && ValueAt(s, p).1 == p + |raw|
  {
    FloatWord(raw);
    BareRoundTrip(raw, s, p);
  }

  /**
    Round trip: a written value followed by the end of the input, a `,` or a
    `)` reads back as the same value and ends exactly where its text ends.
   */
  lemma ValueRoundTrip(v: Value, s: string, p: nat)
    requires Writable(v) && TextAt(s, p, WriteValue(v)) && Delimited(s, p + |WriteValue(v)|)
    ensures ValueAt(s, p).0 == v && ValueAt(s, p).1 == p + |WriteValue(v)|
  {
    match v
    case Null => NullRoundTrip(s, p);
    case Text(x) => TextRoundTrip(x, s, p);
    case Int(i) => IntRoundTrip(i, s, p);
    case Flt(raw) => FloatRoundTrip(raw, s, p);
  }

  /** `NULL` in any letter case reads as `Null` and consumes four characters. */
  lemma NullWordIsNull(s: string, p: nat)
    requires NullAt(s, p)
    ensures ValueAt(s, p) == (Null, p + 4)
  {
  }

  /** A field with no token before the next `,` or `)`, or at the end of input, reads as `Null`. */
  lemma AbsentTokenIsNull(s: string, p: nat)
    requires Delimited(s, p)
    ensures ValueAt(s, p) == (Null, p)
  {
  }
}

=== FILE: wrappers.dfy ===
/** The absent-or-present value that the script expresses with Ruby's `nil`. */
module Wrappers {
  datatype Option<+T> = None | Some(value: T)
}
